=== FILE: README.md ===
# Arcade cabinet framework and games: a Dafny model

This project models the logic core of a small Java arcade-cabinet framework
and three of its games:

- the falling-block game (`TetrisGame`);
- the snake game (`SnakeGame`);
- the brick-breaking game (`BreakoutGame`);
- the USB gamepad's report decoder (`framework/UsbGamepad`);
- the joystick event test's edge detector (`framework/JoystickEventTest`);
- the raw-report change monitor of the HID test tool (`framework/TestHID`).

Each listener or game step is a pure function from a state and an input
(a HID report, a joystick event, a timer tick) to a new state, plus any
events. Randomness and user input become parameters:

- the next Tetris piece, drawn at random;
- the sequence of cells Snake's `rand` draws;
- the name the user types into Breakout's game-over dialog.

Files and modules:

| file | module | models |
|---|---|---|
| `common.dfy` | `Common` | `Option` |
| `bytes.dfy` | `Bytes` | unsigned report bytes, bit tests, byte masks |
| `tetromino.dfy` | `Tetromino` | shape matrices, clockwise rotation, the seven-shape table |
| `tetris.dfy` | `Tetris` | placement check, moves, merge, line clearing, spawning, the tick |
| `snake.dfy` | `Snake` | turn guard, keys, apple placement, the tick, the body invariant |
| `breakout.dfy` | `Breakout` | paddle, brick wall, walls and lives, bounce, bricks, high scores |
| `usb_gamepad.dfy` | `UsbGamepad` | the report listener, button getters, joysticks |
| `joystick_events.dfy` | `JoystickEvents` | direction classification, direction and button edge events |
| `hid_monitor.dfy` | `HidMonitor` | baseline tracking, the real-change filter, `toBitString` |

Modelling decisions:

- **Event order in the edge detector.** For each accepted report the
  listener emits the direction event before the events of buttons 1 to 5
  (framework/JoystickEventTest.java:87-123). The model keeps that order
  (`JoystickEvents.StepShape`, `JoystickEvents.DirectionEdge`).
- **Breakout brick hits.** Every brick hit negates the vertical step. The
  side test at BreakoutGame.java:218 can never hold once the overlap test at
  BreakoutGame.java:213 has passed (`Breakout.BrickHitTurnsVertically`).
- **Breakout paddle bounce.** The code computes `(int)(diff / 10.0)` on
  doubles. `diff` is the distance between the ball's and the paddle's
  centres. Both halves are whole, so `diff` is an exactly represented
  integer. A correctly rounded quotient by 10 never crosses an integer, so
  the cast equals truncating integer division, which the model uses.
- **TestHID, overlong report.** A report longer than the stored last report
  or the baseline makes the listener index past that array and throw. The
  model returns the verdict `IndexFault` and leaves the state unchanged, as
  the exception does.
- **Tetris game over.** `gameOver` calls `initGame`, so play never stops.
  The model passes the new game as a parameter (`again`). When a merge finds
  a cell above the board, `gameOver` runs inside `mergeCurrent`, and the
  clear and the spawn that follow then act on the new game. The model keeps
  that order (`Tetris.OverflowRestarts`).
- **Tetris spawning.** A piece spawns at (3, -2), and every unrotated table
  shape has at most two rows and four columns. So all its cells lie above
  the board in columns 3 to 6, and the placement check at spawn always
  succeeds (`Tetris.SpawnAlwaysFits`). The game-over branch of `spawnNext`
  is kept in the model but can never be taken.

## Model

| member | source | states |
|---|---|---|
| `Tetromino.Rotate` | TetrisGame.java:326-337 | a rows×cols matrix becomes cols×rows, cell (r, c) moving to (c, rows-1-r) |
| `Tetromino.RotateIsShape` | TetrisGame.java:326-337 | rotating a shape gives a shape with its dimensions swapped |
| `Tetromino.RotateTwice` | TetrisGame.java:326-337 | two quarter turns are the half turn (r, c) to (rows-1-r, cols-1-c) |
| `Tetromino.HalfTurn` | TetrisGame.java:326-337 | the half turn keeps the matrix dimensions and rectangularity |
| `Tetromino.HalfTurnTwice` | TetrisGame.java:326-337 | two half turns give back the matrix |
| `Tetromino.RotateFourTimes` | TetrisGame.java:326-337 | four rotations return the original matrix |
| `Tetromino.RotateKeepsCellCount` | TetrisGame.java:326-337 | rotation keeps the number of occupied cells |
| `Tetromino.QuarterTurnImageSize` | TetrisGame.java:333 | the rotation's cell map is injective, so a set of cells keeps its size |
| `Tetromino.ShapesAreShapes` | TetrisGame.java:313-321 | each of the seven table shapes is a non-empty rectangle of at most 2 rows and 4 columns |
| `Tetris.NewPiece` | TetrisGame.java:300-309 | a drawn piece is well formed and starts at the spawn anchor (3, -2) |
| `Tetris.ScanValid` | TetrisGame.java:117-130 | the row-major scan rejects exactly when some occupied cell from (r, c) on is off the sides, below the floor, or on a filled grid cell |
| `Tetris.IsValidMove` | TetrisGame.java:117-130 | valid iff every occupied cell is in a column, above the floor, and either above the board or on an empty cell |
| `Tetris.AboveBoardIgnoresGrid` | TetrisGame.java:125-126 | cells above the board are never checked against the grid |
| `Tetris.SquareRestsOnFloor` | TetrisGame.java:117-130 | on an empty board the 2×2 piece fits exactly down to row 18 |
| `Tetris.MoveDown` | TetrisGame.java:90-96 | moves one row down iff that placement is valid, otherwise the piece is unchanged; a fitting piece still fits |
| `Tetris.MoveCurrent` | TetrisGame.java:98-103 | x changes by dx only when the target placement is valid; y and shape never change |
| `Tetris.RotateCurrent` | TetrisGame.java:105-111 | the shape becomes the rotation only if it is valid at the same anchor (no wall kick) |
| `Tetris.FitsWithinBoard` | TetrisGame.java:132-147 | a valid placement only indexes grid columns and rows that exist |
| `Tetris.Lock` | TetrisGame.java:142-145 | painting the piece keeps the board ROWS×COLS |
| `Tetris.MergeCurrent` | TetrisGame.java:132-147 | overflow iff an occupied cell is above the board, and then nothing is written; otherwise exactly the occupied cells get the piece colour |
| `Tetris.KeepNonFull` | TetrisGame.java:149-171 | every kept row is a row of the board that is not full; kept plus full rows account for every row |
| `Tetris.KeepNonFullAppend` | TetrisGame.java:149-171 | filtering distributes over concatenation, so the kept rows keep their order |
| `Tetris.KeepNonFullSingle` | TetrisGame.java:153-161 | a single row is kept iff it is not full |
| `Tetris.Compacted` | TetrisGame.java:149-171 | the cleared board is ROWS×COLS with no full row |
| `Tetris.ShiftDown` | TetrisGame.java:163-166 | the full row goes, every row above moves down one, an empty row appears on top, rows below stay |
| `Tetris.ClearLines` | TetrisGame.java:149-171 | the in-place top-to-bottom loop yields the compacted board, no full row, and score + 100 × full rows |
| `Tetris.ClearStepFull` | TetrisGame.java:161-167 | removing a full row extends the cleared prefix by that row |
| `Tetris.ClearStepKeep` | TetrisGame.java:152-160 | a row that is not full is left in place |
| `Tetris.ClearedRowIsOriginal` | TetrisGame.java:163-164 | rows below the scan position are untouched by earlier shifts |
| `Tetris.ClearKeepsNonFullRows` | TetrisGame.java:149-171 | after clearing, one empty row per full row sits on top, and every non-full row r of the old board reappears after those, below the non-full rows that were above it |
| `Tetris.ClearKeepsOrder` | TetrisGame.java:149-171 | of two non-full rows, the upper one lands strictly above the lower one |
| `Tetris.NothingToClear` | TetrisGame.java:149-171 | a board without full rows is left unchanged |
| `Tetris.EmptyGrid` | TetrisGame.java:44 | the new board is ROWS×COLS of empty cells |
| `Tetris.TableShape` | TetrisGame.java:313-321 | every table shape is non-empty, rectangular and at most 2×4 |
| `Tetris.SpawnAlwaysFits` | TetrisGame.java:173-182 | an unrotated table shape at the spawn anchor fits on any board |
| `Tetris.NewGameInv` | TetrisGame.java:43-49 | the state `initGame` leaves satisfies the invariant |
| `Tetris.InitGame` | TetrisGame.java:43-49 | an empty board, the two drawn pieces at the spawn anchor, score 0, running, and the invariant holds |
| `Tetris.SpawnNext` | TetrisGame.java:173-182 | the next piece becomes current at (COLS/2-2, -2), the drawn piece becomes next, and play stops iff that placement is invalid |
| `Tetris.Cleared` | TetrisGame.java:149-171 | clearing keeps the board ROWS×COLS and never lowers the score |
| `Tetris.UpdateGame` | TetrisGame.java:78-88 | a stopped game never changes; a piece that can fall moves down one row and nothing else changes |
| `Tetris.Tick` | TetrisGame.java:78-88 | move down, else merge (restarting on overflow), clear, spawn, restarting if the spawn fails: equals the tick function |
| `Tetris.LockThenSpawn` | TetrisGame.java:81-85 | a piece that cannot fall and is on the board locks in; full rows go and score 100 each; the next piece enters at the spawn anchor |
| `Tetris.OverflowRestarts` | TetrisGame.java:139-142 | a piece locking partly above the board restarts: empty board, score 0, the new game's second piece falling, the drawn piece next |
| `Tetris.NeverStops` | TetrisGame.java:184-199 | after any tick of a running game, play goes on |
| `Tetris.UpdatePreservesInv` | TetrisGame.java:78-88 | a tick keeps the board well formed with no full row, the pieces well formed, and a running piece in a valid place |
| `Tetris.HandleInput` | TetrisGame.java:55-73 | while running, left and right shift the falling piece by one column, up rotates it and down drops it one row, each only where the result fits; nothing else changes, a stopped game ignores input, and a fitting piece still fits |
| `Tetris.InputPreservesInv` | TetrisGame.java:55-73 | input handling keeps the invariant |
| `Snake.NextHead` | SnakeGame.java:143-150 | the new head is one cell from the old head |
| `Snake.Turn` | SnakeGame.java:98-109 | the requested direction is taken unless it is the exact opposite of the current one |
| `Snake.OnSteer` | SnakeGame.java:98-109 | a joystick turn never reverses the snake and changes nothing but the direction |
| `Snake.SteerPreservesInv` | SnakeGame.java:98-109 | steering keeps the body invariant |
| `Snake.KeyCommand` | SnakeGame.java:242-256 | arrows and W/S/A/D map to their direction, Enter to restart, other keys to nothing |
| `Snake.OnKey` | SnakeGame.java:240-258 | keys steer with the same reversal guard, Enter restarts only after game over, other keys change nothing |
| `Snake.PlaceApple` | SnakeGame.java:69-83 | the apple is the first drawn cell not on the snake, on the board |
| `Snake.StartBody` | SnakeGame.java:56-61 | the start snake is the three cells (15, 15), (14, 15), (13, 15), heading left to right with its head at the board's centre |
| `Snake.InitGame` | SnakeGame.java:53-67 | segments (15,15), (14,15), (13,15), heading right, score 0, running, apple off the snake |
| `Snake.OnRestart` | SnakeGame.java:89-95 | Menu restarts only after game over |
| `Snake.Advance` | SnakeGame.java:174-179 | the head is prepended; the last segment is dropped unless the snake grows |
| `Snake.StepAsWritten` | SnakeGame.java:166-179 | eating scores one and grows, but the new apple only avoids the old body |
| `Snake.AppleUnderHead` | SnakeGame.java:166-179 | drawing the eaten apple's cell again puts the new apple under the new head |
| `Snake.AppleUnderHeadAtStart` | SnakeGame.java:166-179 | a concrete first move that ends with the apple on the snake |
| `Snake.Step` | SnakeGame.java:139-182 | the wall or any segment, the tail included, ends the game and changes nothing else; eating scores one and grows by the head; otherwise the snake moves |
| `Snake.InitSatisfiesInv` | SnakeGame.java:53-67 | the start state satisfies the body invariant |
| `Snake.PrependKeeps` | SnakeGame.java:175 | a fresh adjacent head keeps the body distinct and connected |
| `Snake.DropTailKeeps` | SnakeGame.java:178 | dropping the tail keeps the body distinct and connected |
| `Snake.AdvanceKeeps` | SnakeGame.java:174-179 | moving or growing onto a free adjacent board cell keeps the segments on the board, distinct and connected |
| `Snake.AsWrittenAgrees` | SnakeGame.java:139-182 | the tick as written and the corrected tick agree on everything but the new apple |
| `Snake.AsWrittenKeepsBody` | SnakeGame.java:139-182 | the tick as written keeps the body invariant and the apple on the board; only the apple's being off the snake is lost |
| `Snake.StepPreservesInv` | SnakeGame.java:139-182 | segments stay on the board, pairwise distinct and adjacent, length = 3 + score, apple on a free cell |
| `Breakout.IntersectsIffSharedPixel` | BreakoutGame.java:213 | two rectangles intersect iff they share a pixel |
| `Breakout.CreateBricks` | BreakoutGame.java:75-92 | fifty visible bricks, brick (i, j) at (60j, 20i+50) of size 60×20, row colours red, orange, yellow, green, cyan |
| `Breakout.BricksTile` | BreakoutGame.java:75-92 | no two bricks overlap, and all lie across the field width between y = 50 and 150 |
| `Breakout.CellsApart` | BreakoutGame.java:79-80 | bricks in different grid cells do not overlap |
| `Breakout.FirstHit` | BreakoutGame.java:207-213 | the first visible brick in row-major order that the ball overlaps, or none |
| `Breakout.Hide` | BreakoutGame.java:214 | hiding a brick changes only its visibility |
| `Breakout.HideOneVisible` | BreakoutGame.java:214 | hiding a visible brick lowers the visible count by one |
| `Breakout.AllVisibleCount` | BreakoutGame.java:89 | a fresh wall has all fifty bricks visible |
| `Breakout.CheckBrickCollision` | BreakoutGame.java:207-228 | without a hit nothing changes; with one, exactly the first hit brick disappears and the score rises by 10 |
| `Breakout.BrickHitTurnsVertically` | BreakoutGame.java:218-222 | every brick hit negates the vertical step and keeps the horizontal one |
| `Breakout.BrickStepKeeps` | BreakoutGame.java:207-228 | the brick step hides at most one brick and pays 10 exactly when it does |
| `Breakout.AllDestroyedFrom` | BreakoutGame.java:230-239 | the scan reports destroyed iff no brick from k on is visible |
| `Breakout.AllDestroyedIffNoneLeft` | BreakoutGame.java:230-239 | all destroyed iff the visible count is 0 |
| `Breakout.MovePaddle` | BreakoutGame.java:148-157 | the paddle moves only while running and only to x in [0, 520], so it stays in the field |
| `Breakout.HandleInput` | BreakoutGame.java:104-122 | left and right move the paddle by the paddle speed (clamped by `MovePaddle`); up restarts only after game over, keeping the high-score list, and does nothing while running |
| `Breakout.InputPreservesInv` | BreakoutGame.java:104-122 | paddle moves and restarts keep the invariant |
| `Breakout.InitGame` | BreakoutGame.java:60-73 | running, score 0, three lives, all fifty bricks visible |
| `Breakout.InitSatisfiesInv` | BreakoutGame.java:60-73 | the start state satisfies the invariant |
| `Breakout.Walls` | BreakoutGame.java:168-173 | a side-wall contact negates the horizontal step, a top contact the vertical one; nothing else changes |
| `Breakout.MoveBall` | BreakoutGame.java:163-173 | the ball advances by its step; at the new position a side contact negates the horizontal step and a top contact the vertical one; nothing else changes |
| `Breakout.TruncTenthRounding` | BreakoutGame.java:193 | the quotient by ten keeps the dividend's sign and rounds toward zero |
| `Breakout.PaddleBounce` | BreakoutGame.java:184-194 | a paddle hit sends the ball upwards with a horizontal step between -4 and 4 |
| `Breakout.Rebound` | BreakoutGame.java:184-202 | the paddle, brick and win steps leave the paddle, lives and ball position alone; when no brick is left the game stops and the score is recorded, otherwise running state and high scores are kept |
| `Breakout.ReboundKeeps` | BreakoutGame.java:184-202 | those steps keep the invariant and hide at most one brick |
| `Breakout.GameOver` | BreakoutGame.java:242-246 | play stops and the score enters the high-score list |
| `Breakout.UpdateGame` | BreakoutGame.java:160-205 | a stopped game never changes, and a tick never moves the paddle |
| `Breakout.TickAboveBottom` | BreakoutGame.java:163-202 | a tick that stays above the bottom moves the ball by exactly its step and keeps the lives; clearing the last brick stops the game with the score recorded, otherwise it keeps running with the same high scores |
| `Breakout.UpdatePreservesInv` | BreakoutGame.java:160-205 | paddle in the field, steps bounded, wall geometry kept, 10 points per destroyed brick, lives and bricks left while running |
| `Breakout.OneBrickPerTick` | BreakoutGame.java:207-228 | a tick hides at most one brick, and the score rises by 10 exactly when it does |
| `Breakout.BottomCostsOneLife` | BreakoutGame.java:174-182 | the bottom costs one life; with none left the game ends and the score is recorded, else the ball restarts at (296, 410) with step (2, -2) |
| `Breakout.LivesKeptAboveBottom` | BreakoutGame.java:174-182 | away from the bottom no life is lost |
| `Breakout.EntryName` | BreakoutGame.java:282 | a cancelled or blank name becomes "Player"; a non-blank name is kept; the result is never blank |
| `Breakout.InsertPermutes` | BreakoutGame.java:284-286 | inserting an entry adds it and loses nothing |
| `Breakout.InsertKeepsSorted` | BreakoutGame.java:286 | insertion keeps a list sorted by score, highest first |
| `Breakout.InsertPosition` | BreakoutGame.java:286 | the new entry follows every entry scoring at least as much and precedes the first lower one |
| `Breakout.LeadingAtLeast` | BreakoutGame.java:286 | the insertion point: every entry before it scores at least the new score, the entry at it scores less |
| `Breakout.InsertLast` | BreakoutGame.java:286 | an entry scoring no more than all others is appended last |
| `Breakout.SortDesc` | BreakoutGame.java:286 | the sort is a permutation |
| `Breakout.SortIsSorted` | BreakoutGame.java:286 | the sort's result is descending |
| `Breakout.SortOfSorted` | BreakoutGame.java:286 | sorting a descending list changes nothing |
| `Breakout.AddHighScore` | BreakoutGame.java:276-289 | exactly one entry is added under its name and the list comes out sorted by score, descending |
| `Breakout.AddToSorted` | BreakoutGame.java:284-286 | added to a sorted list, the entry lands after all equal or higher scores, the others keeping their order |
| `Bytes.MaskIsBit` | framework/UsbGamepad.java:107-109 | masks 0x08, 0x10, 0x20, 0x40, 0x80 test bits 3, 4, 5, 6, 7 |
| `UsbGamepad.OnReport` | framework/UsbGamepad.java:61-78 | a short report changes nothing; otherwise x, y and the button byte are taken, and the centre is set from the first accepted report only |
| `UsbGamepad.ButtonBits` | framework/UsbGamepad.java:107-132 | A1, B1, X1, Y1 and Menu read bits 5, 3, 6, 7 and 4 of byte 6; the player-2 buttons read false |
| `UsbGamepad.UncalibratedIsNeutral` | framework/UsbGamepad.java:139-164 | before calibration no direction reads true |
| `UsbGamepad.OppositesExclusive` | framework/UsbGamepad.java:139-164 | up and down, and left and right, are never true together |
| `UsbGamepad.NoDeviceIsInert` | framework/UsbGamepad.java:18-57 | with no device every button and direction query, of both sticks, is false |
| `UsbGamepad.FirstAccepted` | framework/UsbGamepad.java:62 | the first report of a stream that is long enough, every earlier one being too short; none iff every report is too short |
| `UsbGamepad.CentreFromFirstReport` | framework/UsbGamepad.java:68-73 | over any stream the centre is the axis pair of the first accepted report |
| `UsbGamepad.CentreFrom` | framework/UsbGamepad.java:68-73 | the same from any uncalibrated state |
| `UsbGamepad.CentreStays` | framework/UsbGamepad.java:68-73 | once calibrated, no later report moves the centre |
| `JoystickEvents.DecodeButtons` | framework/JoystickEventTest.java:98-102 | buttons 1 to 5 read masks 0x20, 0x08, 0x40, 0x80, 0x10 |
| `JoystickEvents.ButtonEdges` | framework/JoystickEventTest.java:104-123 | each event names a button whose bit changed, pressed iff now set, in button order |
| `JoystickEvents.EdgesCover` | framework/JoystickEventTest.java:104-123 | every changed button is announced |
| `JoystickEvents.Step` | framework/JoystickEventTest.java:61-124 | a short report yields nothing and no change; the first accepted report sets the centre, which then stays |
| `JoystickEvents.FirstReportFromStart` | framework/JoystickEventTest.java:61-123 | from the start-up fields, the first accepted report becomes the centre, no direction event fires, and exactly the held buttons are announced as pressed |
| `JoystickEvents.ClassifyPriority` | framework/JoystickEventTest.java:75-85 | UP, then DOWN, then LEFT, then RIGHT, else CENTER, each as an iff on the readings |
| `JoystickEvents.DirectionEdge` | framework/JoystickEventTest.java:75-96 | the stored direction is the classification of the reading against the centre; a direction event fires iff it changed, names it, and comes first |
| `JoystickEvents.ButtonEdge` | framework/JoystickEventTest.java:98-123 | a button fires iff its bit changed, pressed iff now set; buttons fire in order 1 to 5 |
| `JoystickEvents.StepShape` | framework/JoystickEventTest.java:87-123 | an accepted report's events are at most one direction event followed by the button edges |
| `JoystickEvents.ButtonsFollowDirection` | framework/JoystickEventTest.java:87-123 | the direction event does not disturb the button events or their order |
| `JoystickEvents.RepeatIsSilent` | framework/JoystickEventTest.java:87-123 | the same report twice in a row yields no events the second time |
| `JoystickEvents.PressThenRelease` | framework/JoystickEventTest.java:98-123 | a press over two reports gives exactly one pressed event, then exactly one released event |
| `JoystickEvents.AgreesWithGamepad` | framework/JoystickEventTest.java:75-85 | with the same centre, each class agrees with the gamepad's joystick predicates: UP iff up, DOWN iff down, LEFT iff left and neither up nor down, RIGHT iff right and none of the others, CENTER iff none |
| `HidMonitor.ScanFrom` | framework/TestHID.java:66-96 | the scan flags a change iff some byte from i on counts as a real change |
| `HidMonitor.DiffsFrom` | framework/TestHID.java:108-119 | the dump lists exactly the differing bytes, with old and new values, in index order |
| `HidMonitor.Step` | framework/TestHID.java:53-122 | the first report becomes baseline and last; an overlong report faults without a change; a quiet report changes nothing; a real change stores the report and dumps exactly the bytes that differ from the last report, at least one |
| `HidMonitor.ByteChangedDiffers` | framework/TestHID.java:72-95 | a byte that counts as a change holds a different value |
| `HidMonitor.ChangedBytesDiffer` | framework/TestHID.java:98-119 | a real change always has a byte to dump |
| `HidMonitor.AxisRestIgnored` | framework/TestHID.java:77-80 | an axis within 10 of baseline before and after never counts |
| `HidMonitor.AxisJitterIgnored` | framework/TestHID.java:82-85 | an axis moving by less than 3 never counts |
| `HidMonitor.AxisLeavingRestCounts` | framework/TestHID.java:72-86 | an axis leaving the deadzone by at least 13 counts |
| `HidMonitor.ButtonByteExact` | framework/TestHID.java:89-93 | a byte from index 4 on counts iff it differs |
| `HidMonitor.RepeatIsQuiet` | framework/TestHID.java:72-100 | repeating the last report is quiet and changes nothing |
| `HidMonitor.BaselineIsFirstReport` | framework/TestHID.java:56-62 | over any stream the baseline is the first report |
| `HidMonitor.BaselineStays` | framework/TestHID.java:56-62 | the baseline never changes, and the last report never outgrows it |
| `HidMonitor.ToBitString` | framework/TestHID.java:140-146 | eight characters, character k being bit 7-k of the byte |
| `HidMonitor.RenderingRoundTrip` | framework/TestHID.java:140-146 | reading the rendering back as binary gives the byte |
| `HidMonitor.PrefixIsShift` | framework/TestHID.java:142-143 | the first j characters read back as the byte shifted right by 8-j |
| `HidMonitor.ShrByteByEight` | framework/TestHID.java:142 | eight halvings of a byte leave 0 |

## Left out

- Swing and JOptionPane UI, rendering, `java.util.Timer` scheduling, and the watcher and timer threads with their races: no logic of the core depends on them. Dialog answers and random draws are parameters.
- Randomness:
  - `Tetromino.random` becomes a piece parameter (shape index, non-zero colour);
  - Snake's `placeApple` draws become a finite sequence of candidate cells. The rejection loop is modelled as ending at the first free draw, and the sequence is required to contain one.
- HID enumeration and device opening, and the high-score file I/O of both games (load and save): these are I/O.
- `framework/InputWatcher.java` and `framework/Button.java` have no modelable bodies. The declaration-only interfaces (`Gamepad`, `Joystick`, `InputListener`, `ArcadeGame`) become datatypes of event names where needed.
- `ButtonPongGame.java` is floating-point throughout. `framework/EmulatorGamepad.java` is a key-table wrapper over the AWT dispatcher.
- Tetris `gameOver`: the name dialog, the high-score file and the timer and watcher restarts are I/O. Only the restart with `initGame` is modelled.
- Breakout's pause flag: nothing ever sets it, so it is left out of the state.
- Breakout.UpdateGame: the ball's position is not bounded by the invariant. Only its steps are: |dx| ≤ 4 and |dy| = 2.
- Java 32-bit `int` overflow: no value in the modelled games comes near it, so integers are unbounded. This includes the high-score comparator `b - a`.
- `Rectangle.intersects` is modelled without its overflow branch, which no value here reaches.
- HidMonitor.ToBitString: it takes the unsigned byte value, while the source passes a signed `byte`. Shifts by at most 7 see the same low eight bits either way.
- The Snake key listener and joystick handlers change the direction even after game over, as the source does. Two turns within one tick can still reverse the snake; it then runs into its own neck and the game ends, which the model reproduces.

## Findings

| source | as written | input that shows it | evidently intended | confidence | as-written member | corrected member |
|---|---|---|---|---|---|---|
| SnakeGame.java:166-175 | when the snake eats, `placeApple` runs before the new head is added to the snake, so a draw equal to the eaten apple's cell, now the head, is accepted | start snake (15,15), (14,15), (13,15) heading right, apple at (16,15), next draw (16,15): the new apple lies under the head (`Snake.AppleUnderHeadAtStart`) | the new apple is never on the snake, as the rejection loop intends | not executed | `Snake.StepAsWritten` | `Snake.Step` |

=== FILE: breakout.dfy ===
/**
 * The integer rules of the brick-breaking game: paddle clamping, the 5×10
 * brick wall, one brick hit per tick, walls and lives, the paddle bounce, the
 * win check, and the high-score list kept sorted by score.
 */
module Breakout {
  import opened Common

  const WIDTH: int := 600
  const HEIGHT: int := 450
  const PADDLE_WIDTH: int := 80
  const PADDLE_HEIGHT: int := 10
  const BALL_SIZE: int := 8
  const BRICK_ROWS: int := 5
  const BRICK_COLS: int := 10
  const BRICK_COUNT: int := BRICK_ROWS * BRICK_COLS
  const BRICK_WIDTH: int := WIDTH / BRICK_COLS
  const BRICK_HEIGHT: int := 20
  /** Vertical offset of the top brick row. */
  const BRICK_TOP: int := 50
  const BRICK_POINTS: int := 10
  const PADDLE_SPEED: int := 6
  const PADDLE_Y: int := HEIGHT - 30
  const START_LIVES: int := 3
  const BALL_START_X: int := WIDTH / 2 - BALL_SIZE / 2
  const BALL_START_Y: int := HEIGHT - 40

  /** An axis-aligned integer rectangle, as `java.awt.Rectangle`. */
  datatype Rect = Rect(x: int, y: int, width: int, height: int)

  /** `Rectangle.intersects`: both non-empty and overlapping with positive area. */
  predicate Intersects(a: Rect, b: Rect)
  {
    && a.width > 0 && a.height > 0 && b.width > 0 && b.height > 0
    && b.x + b.width > a.x && b.y + b.height > a.y
    && a.x + a.width > b.x && a.y + a.height > b.y
  }

  /** Pixel (px, py) lies in `r`. */
  predicate Covers(r: Rect, px: int, py: int)
  {
    r.x <= px < r.x + r.width && r.y <= py < r.y + r.height
  }

  /** Two rectangles intersect exactly when they share a pixel. */
  lemma IntersectsIffSharedPixel(a: Rect, b: Rect)
    ensures Intersects(a, b) <==> exists px, py :: Covers(a, px, py) && Covers(b, px, py)
  {
    if Intersects(a, b) {
      var px := if a.x < b.x then b.x else a.x;
      var py := if a.y < b.y then b.y else a.y;
      assert Covers(a, px, py) && Covers(b, px, py);
    }
  }

  datatype Color = Red | Orange | Yellow | Green | Cyan

  datatype Brick = Brick(rect: Rect, color: Color, visible: bool)

  /** The colour of brick row `i`: red, orange, yellow, green, then cyan. */
  function RowColor(i: int): Color
  {
    if i == 0 then Red else if i == 1 then Orange else if i == 2 then Yellow else if i == 3 then Green else Cyan
  }

  /**
   * The bounds of brick (i, j) = (k / 10, k % 10). The wall is kept as one
   * sequence in the row-major order in which the source's nested loops visit it.
   */
  function BrickRect(k: int): Rect
  {
    Rect((k % BRICK_COLS) * BRICK_WIDTH, (k / BRICK_COLS) * BRICK_HEIGHT + BRICK_TOP, BRICK_WIDTH, BRICK_HEIGHT)
  }

  /** `createBricks`: fifty visible bricks, row `i` coloured by `RowColor(i)`. */
  function CreateBricks(): (bricks: seq<Brick>)
    ensures |bricks| == BRICK_COUNT
    ensures forall k :: 0 <= k < |bricks| ==> bricks[k].visible && bricks[k].rect == BrickRect(k)
    ensures forall k :: 0 <= k < |bricks| ==> bricks[k].color == RowColor(k / BRICK_COLS)
  {
    seq(BRICK_COUNT, k requires 0 <= k < BRICK_COUNT => Brick(BrickRect(k), RowColor(k / BRICK_COLS), true))
  }

  /** The wall tiles the band y in [50, 150) across the full width: no two bricks overlap. */
  lemma BricksTile(k: int, l: int)
    requires 0 <= k < BRICK_COUNT && 0 <= l < BRICK_COUNT && k != l
    ensures !Intersects(BrickRect(k), BrickRect(l))
    ensures 0 <= BrickRect(k).x && BrickRect(k).x + BRICK_WIDTH <= WIDTH
    ensures BRICK_TOP <= BrickRect(k).y && BrickRect(k).y + BRICK_HEIGHT <= BRICK_TOP + BRICK_ROWS * BRICK_HEIGHT
  {
    var rk, ck := k / BRICK_COLS, k % BRICK_COLS;
    var rl, cl := l / BRICK_COLS, l % BRICK_COLS;
    assert k == rk * BRICK_COLS + ck && l == rl * BRICK_COLS + cl;
    assert rk != rl || ck != cl;
    CellsApart(rk, ck, rl, cl);
  }

  /** Bricks in different rows or columns of the grid do not overlap. */
  lemma CellsApart(rk: int, ck: int, rl: int, cl: int)
    requires rk != rl || ck != cl
    ensures !Intersects(Rect(ck * BRICK_WIDTH, rk * BRICK_HEIGHT + BRICK_TOP, BRICK_WIDTH, BRICK_HEIGHT),
                        Rect(cl * BRICK_WIDTH, rl * BRICK_HEIGHT + BRICK_TOP, BRICK_WIDTH, BRICK_HEIGHT))
  {
    if rk != rl {
      assert rk < rl || rl < rk;
    } else {
      assert ck < cl || cl < ck;
    }
  }

  /** A brick the ball can hit: still visible and overlapping the ball. */
  predicate Hits(ball: Rect, b: Brick)
  {
    b.visible && Intersects(ball, b.rect)
  }

  /** The scan of `checkBrickCollision`: the first brick from `k` on, in row-major order, that the ball hits. */
  function FirstHit(ball: Rect, bricks: seq<Brick>, k: nat): (hit: Option<nat>)
    requires k <= |bricks|
    ensures hit.Some? ==>
      (k <= hit.value < |bricks| && Hits(ball, bricks[hit.value])
       && forall l :: k <= l < hit.value ==> !Hits(ball, bricks[l]))
    ensures hit.None? ==> forall l :: k <= l < |bricks| ==> !Hits(ball, bricks[l])
    decreases |bricks| - k
  {
    if k == |bricks| then None
    else if Hits(ball, bricks[k]) then Some(k)
    else FirstHit(ball, bricks, k + 1)
  }

  /** `setInvisible` on brick `k`. */
  function Hide(bricks: seq<Brick>, k: nat): (bricks': seq<Brick>)
    requires k < |bricks|
    ensures |bricks'| == |bricks| && !bricks'[k].visible
    ensures forall l :: 0 <= l < |bricks| ==> bricks'[l].rect == bricks[l].rect && bricks'[l].color == bricks[l].color
    ensures forall l :: 0 <= l < |bricks| && l != k ==> bricks'[l] == bricks[l]
  {
    bricks[k := bricks[k].(visible := false)]
  }

  /** The number of visible bricks. */
  function VisibleCount(bricks: seq<Brick>): (n: nat)
    ensures n <= |bricks|
  {
    if |bricks| == 0 then 0
    else VisibleCount(bricks[..|bricks| - 1]) + (if bricks[|bricks| - 1].visible then 1 else 0)
  }

  /** Hiding one visible brick lowers the count by exactly one. */
  lemma {:induction false} HideOneVisible(bricks: seq<Brick>, k: nat)
    requires k < |bricks| && bricks[k].visible
    ensures VisibleCount(Hide(bricks, k)) == VisibleCount(bricks) - 1
    decreases |bricks|
  {
    var n := |bricks|;
    var h := Hide(bricks, k);
    if k < n - 1 {
      assert h[..n - 1] == Hide(bricks[..n - 1], k);
      HideOneVisible(bricks[..n - 1], k);
    } else {
      assert h[..n - 1] == bricks[..n - 1];
    }
  }

  /** A wall of visible bricks counts every brick. */
  lemma {:induction false} AllVisibleCount(bricks: seq<Brick>)
    requires forall k :: 0 <= k < |bricks| ==> bricks[k].visible
    ensures VisibleCount(bricks) == |bricks|
    decreases |bricks|
  {
    if |bricks| > 0 {
      AllVisibleCount(bricks[..|bricks| - 1]);
    }
  }

  /** `allBricksDestroyed`: the scan from `k` on finds no visible brick. */
  function AllDestroyedFrom(bricks: seq<Brick>, k: nat): (done: bool)
    requires k <= |bricks|
    ensures done <==> forall l :: k <= l < |bricks| ==> !bricks[l].visible
    decreases |bricks| - k
  {
    if k == |bricks| then true
    else if bricks[k].visible then false
    else AllDestroyedFrom(bricks, k + 1)
  }

  predicate AllDestroyed(bricks: seq<Brick>)
  {
    AllDestroyedFrom(bricks, 0)
  }

  /** The win check agrees with the count: destroyed exactly when no brick is left visible. */
  lemma {:induction false} AllDestroyedIffNoneLeft(bricks: seq<Brick>)
    ensures AllDestroyed(bricks) <==> VisibleCount(bricks) == 0
    decreases |bricks|
  {
    if |bricks| > 0 {
      var init := bricks[..|bricks| - 1];
      AllDestroyedIffNoneLeft(init);
      assert AllDestroyed(bricks) <==> AllDestroyed(init) && !bricks[|bricks| - 1].visible by {
        forall l | 0 <= l < |init|
          ensures init[l] == bricks[l]
        {
        }
      }
    }
  }

  /** Java's truncating integer division, which `(int)` applied to a quotient performs. */
  function TruncDiv(a: int, b: int): (q: int)
    requires b > 0
  {
    if a >= 0 then a / b else -((-a) / b)
  }

  /** Truncation by ten: the quotient has the dividend's sign and the largest magnitude not overshooting it. */
  lemma TruncTenthRounding(a: int)
    ensures var q := TruncDiv(a, 10);
      && (a >= 0 ==> q >= 0 && 10 * q <= a < 10 * q + 10)
      && (a < 0 ==> q <= 0 && 10 * q - 10 < a <= 10 * q)
  {
  }

  datatype HighScore = HighScore(name: string, score: int)

  /** `Character.isWhitespace`: the Unicode space separators other than the no-break ones, and the control blanks. */
  predicate IsWhitespace(c: char)
  {
    || c == ' ' || c == '\U{1680}'
    || ('\U{2000}' <= c <= '\U{2006}') || ('\U{2008}' <= c <= '\U{200A}')
    || c == '\U{205F}' || c == '\U{3000}' || c == '\U{2028}' || c == '\U{2029}'
    || ('\t' <= c <= '\r') || ('\U{1C}' <= c <= '\U{1F}')
  }

  /** `String.isBlank`: empty, or whitespace only. */
  predicate IsBlank(s: string)
  {
    forall i :: 0 <= i < |s| ==> IsWhitespace(s[i])
  }

  const DEFAULT_NAME: string := "Player"

  /** The name the dialog answer gives: a cancelled or blank answer becomes "Player". */
  function EntryName(answer: Option<string>): (name: string)
    ensures !IsBlank(name)
    ensures answer.Some? && !IsBlank(answer.value) ==> name == answer.value
    ensures answer.None? || IsBlank(answer.value) ==> name == DEFAULT_NAME
  {
    if answer.None? || IsBlank(answer.value) then
      assert DEFAULT_NAME[0] == 'P';
      DEFAULT_NAME
    else answer.value
  }

  predicate SortedDesc(xs: seq<HighScore>)
  {
    forall i, j :: 0 <= i < j < |xs| ==> xs[i].score >= xs[j].score
  }

  /** Places `e` after the leading entries scoring at least as much as it. */
  function InsertDesc(xs: seq<HighScore>, e: HighScore): (r: seq<HighScore>)
    ensures |r| == |xs| + 1
    decreases |xs|
  {
    if |xs| == 0 then [e]
    else if xs[0].score >= e.score then [xs[0]] + InsertDesc(xs[1..], e)
    else [e] + xs
  }

  /** Insertion adds `e` and loses nothing. */
  lemma {:induction false} InsertPermutes(xs: seq<HighScore>, e: HighScore)
    ensures multiset(InsertDesc(xs, e)) == multiset(xs) + multiset{e}
    decreases |xs|
  {
    if |xs| > 0 && xs[0].score >= e.score {
      InsertPermutes(xs[1..], e);
      assert xs == [xs[0]] + xs[1..];
    }
  }

  /** Inserting into a descending list keeps it descending. */
  lemma {:induction false} InsertKeepsSorted(xs: seq<HighScore>, e: HighScore)
    requires SortedDesc(xs)
    ensures SortedDesc(InsertDesc(xs, e))
    decreases |xs|
  {
    if |xs| > 0 && xs[0].score >= e.score {
      var rest := InsertDesc(xs[1..], e);
      InsertKeepsSorted(xs[1..], e);
      InsertPermutes(xs[1..], e);
      var r := [xs[0]] + rest;
      forall j | 0 < j < |r|
        ensures xs[0].score >= r[j].score
      {
        assert r[j] in multiset(rest);
        assert r[j] in multiset(xs[1..]) || r[j] == e;
        if r[j] != e {
          var m :| 0 <= m < |xs[1..]| && xs[1..][m] == r[j];
          assert xs[m + 1] == r[j];
        }
      }
    }
  }

  /** The number of leading entries scoring at least `score`. */
  function LeadingAtLeast(xs: seq<HighScore>, score: int): (p: nat)
    ensures p <= |xs|
    ensures forall i :: 0 <= i < p ==> xs[i].score >= score
    ensures p < |xs| ==> xs[p].score < score
    decreases |xs|
  {
    if |xs| == 0 || xs[0].score < score then 0 else 1 + LeadingAtLeast(xs[1..], score)
  }

  /**
   * The insertion point is exact: `e` follows every leading entry scoring
   * at least as much, precedes the first that scores less, and the list is
   * otherwise untouched.
   */
  lemma {:induction false} InsertPosition(xs: seq<HighScore>, e: HighScore)
    ensures var p := LeadingAtLeast(xs, e.score);
      InsertDesc(xs, e) == xs[..p] + [e] + xs[p..]
    decreases |xs|
  {
    var p := LeadingAtLeast(xs, e.score);
    if |xs| > 0 && xs[0].score >= e.score {
      var ys := xs[1..];
      var q := LeadingAtLeast(ys, e.score);
      assert p == q + 1;
      InsertPosition(ys, e);
      assert InsertDesc(xs, e) == [xs[0]] + (ys[..q] + [e] + ys[q..]);
      assert [xs[0]] + ys[..q] == xs[..p];
      assert ys[q..] == xs[p..];
      assert [xs[0]] + (ys[..q] + [e] + ys[q..]) == ([xs[0]] + ys[..q]) + [e] + ys[q..];
    }
  }

  /** `List.sort` with the descending comparator: a stable insertion sort. */
  function SortDesc(xs: seq<HighScore>): (r: seq<HighScore>)
    ensures |r| == |xs| && multiset(r) == multiset(xs)
    decreases |xs|
  {
    if |xs| == 0 then []
    else
      assert xs == xs[..|xs| - 1] + [xs[|xs| - 1]];
      InsertPermutes(SortDesc(xs[..|xs| - 1]), xs[|xs| - 1]);
      InsertDesc(SortDesc(xs[..|xs| - 1]), xs[|xs| - 1])
  }

  lemma {:induction false} SortIsSorted(xs: seq<HighScore>)
    ensures SortedDesc(SortDesc(xs))
    decreases |xs|
  {
    if |xs| > 0 {
      SortIsSorted(xs[..|xs| - 1]);
      InsertKeepsSorted(SortDesc(xs[..|xs| - 1]), xs[|xs| - 1]);
    }
  }

  /** An entry scoring no more than any in the list goes to its end. */
  lemma {:induction false} InsertLast(xs: seq<HighScore>, e: HighScore)
    requires forall i :: 0 <= i < |xs| ==> xs[i].score >= e.score
    ensures InsertDesc(xs, e) == xs + [e]
    decreases |xs|
  {
    if |xs| > 0 {
      InsertLast(xs[1..], e);
      assert [xs[0]] + (xs[1..] + [e]) == xs + [e];
    }
  }

  /** Sorting a list that is already descending leaves it as it is. */
  lemma {:induction false} SortOfSorted(xs: seq<HighScore>)
    requires SortedDesc(xs)
    ensures SortDesc(xs) == xs
    decreases |xs|
  {
    if |xs| > 0 {
      var init := xs[..|xs| - 1];
      SortOfSorted(init);
      InsertLast(init, xs[|xs| - 1]);
      assert init + [xs[|xs| - 1]] == xs;
    }
  }

  /** `addHighScore`: append the entry under its name, then sort by score, highest first. */
  function AddHighScore(list: seq<HighScore>, answer: Option<string>, score: int): (r: seq<HighScore>)
    ensures |r| == |list| + 1
    ensures multiset(r) == multiset(list) + multiset{HighScore(EntryName(answer), score)}
    ensures SortedDesc(r)
  {
    var r := SortDesc(list + [HighScore(EntryName(answer), score)]);
    SortIsSorted(list + [HighScore(EntryName(answer), score)]);
    r
  }

  /**
   * Added to a descending list, the new entry lands after every entry with
   * an equal or higher score and before every lower one; the rest keep their order.
   */
  lemma AddToSorted(list: seq<HighScore>, answer: Option<string>, score: int)
    requires SortedDesc(list)
    ensures var p := LeadingAtLeast(list, score);
      AddHighScore(list, answer, score) == list[..p] + [HighScore(EntryName(answer), score)] + list[p..]
  {
    InsertPosition(list, HighScore(EntryName(answer), score));
    var e := HighScore(EntryName(answer), score);
    var xs := list + [e];
    assert xs[..|xs| - 1] == list;
    SortOfSorted(list);
  }

  /** The whole game state; the pause flag is left out because nothing ever sets it. */
  datatype Game = Game(
    paddleX: int,
    ballX: int, ballY: int, dx: int, dy: int,
    bricks: seq<Brick>,
    score: int, lives: int, running: bool,
    highscores: seq<HighScore>)

  function BallRect(g: Game): Rect
  {
    Rect(g.ballX, g.ballY, BALL_SIZE, BALL_SIZE)
  }

  function PaddleRect(g: Game): Rect
  {
    Rect(g.paddleX, PADDLE_Y, PADDLE_WIDTH, PADDLE_HEIGHT)
  }

  /** `initGame`: paddle centred near the bottom, ball above it heading up-right, a full wall, three lives. */
  function InitGame(highscores: seq<HighScore>): (g: Game)
    ensures g.running && g.score == 0 && g.lives == START_LIVES && g.highscores == highscores
    ensures VisibleCount(g.bricks) == BRICK_COUNT
  {
    AllVisibleCount(CreateBricks());
    Game(WIDTH / 2 - PADDLE_WIDTH / 2, BALL_START_X, BALL_START_Y, 2, -2, CreateBricks(), 0, START_LIVES, true, highscores)
  }

  /** `resetBallPosition`. */
  function ResetBall(g: Game): Game
  {
    g.(ballX := BALL_START_X, ballY := BALL_START_Y, dx := 2, dy := -2)
  }

  /** `movePaddle`: a step that would leave [0, WIDTH - PADDLE_WIDTH] is refused; nothing moves after game over. */
  function MovePaddle(g: Game, delta: int): (g': Game)
    ensures g' == g || (g.running && g' == g.(paddleX := g.paddleX + delta))
    ensures 0 <= g.paddleX <= WIDTH - PADDLE_WIDTH ==> 0 <= g'.paddleX <= WIDTH - PADDLE_WIDTH
    ensures g.running && 0 <= g.paddleX + delta <= WIDTH - PADDLE_WIDTH ==> g'.paddleX == g.paddleX + delta
  {
    if !g.running then g
    else if 0 <= g.paddleX + delta <= WIDTH - PADDLE_WIDTH then g.(paddleX := g.paddleX + delta)
    else g
  }

  /** Joystick 1 events: left/right move the paddle, up restarts after game over. */
  datatype Input = StickLeft | StickRight | StickUp

  function HandleInput(g: Game, input: Input): (g': Game)
    ensures input == StickUp && !g.running ==> g' == InitGame(g.highscores)
    ensures input == StickUp && g.running ==> g' == g
    ensures input == StickLeft ==> g' == MovePaddle(g, -PADDLE_SPEED)
    ensures input == StickRight ==> g' == MovePaddle(g, PADDLE_SPEED)
  {
    match input
    case StickLeft => MovePaddle(g, -PADDLE_SPEED)
    case StickRight => MovePaddle(g, PADDLE_SPEED)
    case StickUp => if !g.running then InitGame(g.highscores) else g
  }

  /** Side walls negate the horizontal step, the top wall the vertical one. */
  function Walls(g: Game): (g': Game)
    ensures g' == g.(dx := g'.dx, dy := g'.dy)
    ensures g'.dx == (if g.ballX <= 0 || g.ballX >= WIDTH - BALL_SIZE then -g.dx else g.dx)
    ensures g'.dy == (if g.ballY <= 0 then -g.dy else g.dy)
  {
    var dx := if g.ballX <= 0 || g.ballX >= WIDTH - BALL_SIZE then -g.dx else g.dx;
    var dy := if g.ballY <= 0 then -g.dy else g.dy;
    g.(dx := dx, dy := dy)
  }

  /**
   * The paddle bounce: the ball leaves upwards, its horizontal step set by
   * how far its centre is from the paddle's, a tenth of the distance truncated.
   */
  function PaddleBounce(g: Game): (g': Game)
    ensures !Intersects(BallRect(g), PaddleRect(g)) ==> g' == g
    ensures Intersects(BallRect(g), PaddleRect(g)) ==>
      g' == g.(dx := g'.dx, dy := g'.dy) && g'.dy <= 0 && (g'.dy == g.dy || g'.dy == -g.dy)
      && -4 <= g'.dx <= 4
  {
    if Intersects(BallRect(g), PaddleRect(g)) then
      var diff := (g.ballX + BALL_SIZE / 2) - (g.paddleX + PADDLE_WIDTH / 2);
      TruncTenthRounding(diff);
      g.(dy := if g.dy < 0 then g.dy else -g.dy, dx := TruncDiv(diff, 10))
    else g
  }

  /** `checkBrickCollision`: the first hit brick disappears, scores 10, and turns the ball. */
  function CheckBrickCollision(g: Game): (g': Game)
    ensures FirstHit(BallRect(g), g.bricks, 0).None? ==> g' == g
    ensures FirstHit(BallRect(g), g.bricks, 0).Some? ==>
      var k := FirstHit(BallRect(g), g.bricks, 0).value;
      && g'.bricks == Hide(g.bricks, k) && g'.score == g.score + BRICK_POINTS
      && g' == g.(bricks := g'.bricks, score := g'.score, dx := g'.dx, dy := g'.dy)
  {
    match FirstHit(BallRect(g), g.bricks, 0)
    case None => g
    case Some(k) =>
      var r := g.bricks[k].rect;
      var g1 := g.(bricks := Hide(g.bricks, k), score := g.score + BRICK_POINTS);
      if g.ballX + BALL_SIZE <= r.x || g.ballX >= r.x + r.width then g1.(dx := -g.dx)
      else g1.(dy := -g.dy)
  }

  /** The side-hit test of `checkBrickCollision` contradicts the overlap that led there: every hit turns the ball vertically. */
  lemma BrickHitTurnsVertically(g: Game)
    requires FirstHit(BallRect(g), g.bricks, 0).Some?
    ensures CheckBrickCollision(g).dx == g.dx && CheckBrickCollision(g).dy == -g.dy
  {
  }

  /** `gameOver`: play stops and the score enters the high-score list. */
  function GameOver(g: Game, answer: Option<string>): (g': Game)
    ensures !g'.running && g'.highscores == AddHighScore(g.highscores, answer, g.score)
    ensures g' == g.(running := false, highscores := g'.highscores)
  {
    g.(running := false, highscores := AddHighScore(g.highscores, answer, g.score))
  }

  /** The tick after the wall and bottom checks: paddle, bricks, then the win check. */
  function Rebound(g: Game, answer: Option<string>): (g': Game)
    ensures g'.paddleX == g.paddleX && g'.lives == g.lives
    ensures g'.ballX == g.ballX && g'.ballY == g.ballY
    ensures VisibleCount(g'.bricks) == 0 ==>
      !g'.running && g'.highscores == AddHighScore(g.highscores, answer, g'.score)
    ensures VisibleCount(g'.bricks) > 0 ==> g'.running == g.running && g'.highscores == g.highscores
  {
    var g' := CheckBrickCollision(PaddleBounce(g));
    AllDestroyedIffNoneLeft(g'.bricks);
    if AllDestroyed(g'.bricks) then GameOver(g', answer) else g'
  }

  /** The ball after one step and the wall checks. */
  function MoveBall(g: Game): (g': Game)
    ensures g'.ballX == g.ballX + g.dx && g'.ballY == g.ballY + g.dy
    ensures g' == g.(ballX := g'.ballX, ballY := g'.ballY, dx := g'.dx, dy := g'.dy)
    ensures g'.dx == (if g'.ballX <= 0 || g'.ballX >= WIDTH - BALL_SIZE then -g.dx else g.dx)
    ensures g'.dy == (if g'.ballY <= 0 then -g.dy else g.dy)
  {
    Walls(g.(ballX := g.ballX + g.dx, ballY := g.ballY + g.dy))
  }

  /**
   * One tick (`updateGame`): move, walls, bottom (a life lost, game over at
   * none left, else a reset ball), paddle, bricks, then the win check.
   * `answer` is the name the game-over dialog would return.
   */
  function UpdateGame(g: Game, answer: Option<string>): (g': Game)
    ensures !g.running ==> g' == g
    ensures g'.paddleX == g.paddleX
  {
    if !g.running then g
    else
      var g1 := MoveBall(g);
      if g1.ballY >= HEIGHT - BALL_SIZE then
        if g1.lives - 1 <= 0 then GameOver(g1.(lives := g1.lives - 1), answer)
        else Rebound(ResetBall(g1.(lives := g1.lives - 1)), answer)
      else Rebound(g1, answer)
  }

  /** Everything reachable states satisfy regardless of whether play is running. */
  predicate Frame(g: Game)
  {
    && 0 <= g.paddleX <= WIDTH - PADDLE_WIDTH
    && -4 <= g.dx <= 4 && (g.dy == 2 || g.dy == -2)
    && |g.bricks| == BRICK_COUNT
    && (forall k :: 0 <= k < |g.bricks| ==> g.bricks[k].rect == BrickRect(k))
    && g.score == BRICK_POINTS * (BRICK_COUNT - VisibleCount(g.bricks))
    && 0 <= g.lives <= START_LIVES
  }

  /**
   * What every reachable state satisfies: the paddle inside the field, a
   * horizontal step of at most 4 and a vertical step of 2, the wall's
   * geometry intact, ten points per destroyed brick, at most three lives,
   * and while running at least one life and one brick left.
   */
  predicate Inv(g: Game)
  {
    Frame(g) && (g.running ==> g.lives > 0 && VisibleCount(g.bricks) > 0)
  }

  lemma InitSatisfiesInv(highscores: seq<HighScore>)
    ensures Inv(InitGame(highscores))
  {
  }

  /** The brick step keeps the wall's geometry and trades each hidden brick for ten points. */
  lemma BrickStepKeeps(g: Game)
    requires Frame(g)
    ensures var g' := CheckBrickCollision(g);
      && Frame(g')
      && (VisibleCount(g'.bricks) == VisibleCount(g.bricks) || VisibleCount(g'.bricks) == VisibleCount(g.bricks) - 1)
      && (g'.score == g.score + BRICK_POINTS <==> VisibleCount(g'.bricks) == VisibleCount(g.bricks) - 1)
      && (g'.score == g.score <==> VisibleCount(g'.bricks) == VisibleCount(g.bricks))
  {
    var hit := FirstHit(BallRect(g), g.bricks, 0);
    if hit.Some? {
      HideOneVisible(g.bricks, hit.value);
    }
  }

  /** The wall, paddle, brick and win steps keep the invariant, and hide at most one brick. */
  lemma ReboundKeeps(g: Game, answer: Option<string>)
    requires Frame(g) && g.lives > 0
    ensures var g' := Rebound(g, answer);
      && Inv(g')
      && (VisibleCount(g'.bricks) == VisibleCount(g.bricks) || VisibleCount(g'.bricks) == VisibleCount(g.bricks) - 1)
      && (g'.score == g.score + BRICK_POINTS <==> VisibleCount(g'.bricks) == VisibleCount(g.bricks) - 1)
      && (g'.score == g.score <==> VisibleCount(g'.bricks) == VisibleCount(g.bricks))
  {
    var g1 := PaddleBounce(g);
    assert Frame(g1);
    BrickStepKeeps(g1);
    AllDestroyedIffNoneLeft(CheckBrickCollision(g1).bricks);
  }

  /** A tick keeps the invariant. */
  lemma UpdatePreservesInv(g: Game, answer: Option<string>)
    requires Inv(g)
    ensures Inv(UpdateGame(g, answer))
  {
    if g.running {
      var g1 := MoveBall(g);
      assert Frame(g1);
      if g1.ballY >= HEIGHT - BALL_SIZE {
        if g1.lives - 1 > 0 {
          ReboundKeeps(ResetBall(g1.(lives := g1.lives - 1)), answer);
        }
      } else {
        ReboundKeeps(g1, answer);
      }
    }
  }

  /** Paddle and restart inputs keep the invariant. */
  lemma InputPreservesInv(g: Game, input: Input)
    requires Inv(g)
    ensures Inv(HandleInput(g, input))
  {
  }

  /** At most one brick goes per tick, and the score rises by 10 exactly when one does. */
  lemma OneBrickPerTick(g: Game, answer: Option<string>)
    requires Inv(g)
    ensures var g' := UpdateGame(g, answer);
      && (VisibleCount(g'.bricks) == VisibleCount(g.bricks) || VisibleCount(g'.bricks) == VisibleCount(g.bricks) - 1)
      && (g'.score == g.score + BRICK_POINTS <==> VisibleCount(g'.bricks) == VisibleCount(g.bricks) - 1)
      && (g'.score == g.score <==> VisibleCount(g'.bricks) == VisibleCount(g.bricks))
  {
    if g.running {
      var g1 := MoveBall(g);
      assert Frame(g1);
      if g1.ballY >= HEIGHT - BALL_SIZE {
        if g1.lives - 1 > 0 {
          ReboundKeeps(ResetBall(g1.(lives := g1.lives - 1)), answer);
        }
      } else {
        ReboundKeeps(g1, answer);
      }
    }
  }

  /**
   * Above the bottom a tick moves the ball by its step, and clearing the
   * last brick ends the game with the score recorded.
   */
  lemma TickAboveBottom(g: Game, answer: Option<string>)
    requires Inv(g) && g.running
    requires g.ballY + g.dy < HEIGHT - BALL_SIZE
    ensures var g' := UpdateGame(g, answer);
      && g'.ballX == g.ballX + g.dx && g'.ballY == g.ballY + g.dy
      && g'.lives == g.lives
      && (VisibleCount(g'.bricks) == 0 ==>
            !g'.running && g'.highscores == AddHighScore(g.highscores, answer, g'.score))
      && (VisibleCount(g'.bricks) > 0 ==> g'.running && g'.highscores == g.highscores)
  {
    var g1 := MoveBall(g);
    assert Frame(g1);
    ReboundKeeps(g1, answer);
  }

  /**
   * Reaching the bottom costs exactly one life: with none left the game ends
   * and the score is recorded, otherwise the ball restarts from its start
   * position heading up-right while the wall and score stay as they were.
   */
  lemma BottomCostsOneLife(g: Game, answer: Option<string>)
    requires Inv(g) && g.running
    requires g.ballY + g.dy >= HEIGHT - BALL_SIZE
    ensures var g' := UpdateGame(g, answer);
      && g'.lives == g.lives - 1
      && (g'.lives <= 0 ==> !g'.running && g'.highscores == AddHighScore(g.highscores, answer, g.score))
      && (g'.lives > 0 ==>
            (g'.running && g'.ballX == BALL_START_X && g'.ballY == BALL_START_Y
             && g'.dx == 2 && g'.dy == -2 && g'.bricks == g.bricks && g'.score == g.score))
  {
    var g1 := MoveBall(g);
    if g1.lives - 1 > 0 {
      var g2 := ResetBall(g1.(lives := g1.lives - 1));
      assert !Intersects(BallRect(g2), PaddleRect(g2));
      forall k | 0 <= k < |g2.bricks|
        ensures !Hits(BallRect(g2), g2.bricks[k])
      {
        BricksTile(k, if k == 0 then 1 else 0);
      }
      AllDestroyedIffNoneLeft(g2.bricks);
    }
  }

  /** Away from the bottom no life is lost. */
  lemma LivesKeptAboveBottom(g: Game, answer: Option<string>)
    requires g.ballY + g.dy < HEIGHT - BALL_SIZE
    ensures UpdateGame(g, answer).lives == g.lives
  {
  }
}

=== FILE: bytes.dfy ===
/**
 * Unsigned bytes as the HID listeners see them after `data[i] & 0xFF`,
 * and single-bit tests on them.
 */
module Bytes {

  /** An unsigned byte value, 0..255. */
  type Byte = b: int | 0 <= b < 256

  /** A HID input report: the first `len` bytes of the buffer. */
  type Report = seq<Byte>

  /** `v >> k` for a non-negative value: `k` halvings, rounding down. */
  function Shr(v: nat, k: nat): nat
  {
    if k == 0 then v else Shr(v, k - 1) / 2
  }

  /** Bit `k` of `b`, i.e. `((b >> k) & 1) == 1` (bit 0 is the least significant). */
  predicate Bit(b: Byte, k: nat)
  {
    Shr(b, k) % 2 == 1
  }

  /** `(b & mask) != 0`, the test the controller code applies to the button byte. */
  predicate HasMask(b: Byte, mask: bv8)
  {
    (b as bv8) & mask != 0
  }

  /**
   * Every mask the controller code tests has exactly one bit set, so the
   * bitwise test is the test of one bit.
   */
  lemma MaskIsBit(b: Byte)
    ensures HasMask(b, 0x08) <==> Bit(b, 3)
    ensures HasMask(b, 0x10) <==> Bit(b, 4)
    ensures HasMask(b, 0x20) <==> Bit(b, 5)
    ensures HasMask(b, 0x40) <==> Bit(b, 6)
    ensures HasMask(b, 0x80) <==> Bit(b, 7)
  {
    assert Shr(b, 1) == b / 2;
    assert Shr(b, 2) == b / 4;
    assert Shr(b, 3) == b / 8;
    assert Shr(b, 4) == b / 16;
    assert Shr(b, 5) == b / 32;
    assert Shr(b, 6) == b / 64;
    assert Shr(b, 7) == b / 128;
  }
}

=== FILE: common.dfy ===
/** Small shared datatypes used by several models. */
module Common {

  /** A value that may be absent: Java's nullable reference. */
  datatype Option<+T> = None | Some(value: T)
}

=== FILE: hid_monitor.dfy ===
/**
 * The raw-report change monitor of the HID test tool: it remembers the first
 * report as a baseline, filters later reports byte by byte for a "real"
 * change (axis deadzone and jitter threshold on bytes 0..3, exact comparison
 * on the button bytes from 4 on), and renders bytes as bit strings.
 */
module HidMonitor {
  import opened Bytes

  /** Bytes 0..3 of a report are axes; the rest are button bitmasks. */
  const LAST_AXIS_BYTE: nat := 3
  /** An axis within this distance of its baseline is at rest. */
  const AXIS_DEADZONE: nat := 10
  /** An axis whose distance from baseline moves by less than this is flicker. */
  const AXIS_JITTER: nat := 3

  /** Before the first report nothing is known; afterwards a baseline and the last accepted report. */
  datatype Monitor = Fresh | Tracking(baseline: Report, last: Report)

  /** One line of the change dump: byte `index` went from `before` to `after`. */
  datatype ByteDiff = ByteDiff(index: nat, before: Byte, after: Byte)

  /** What the listener does with one report. */
  datatype Verdict =
    | Initial                          // first report: stored as baseline, nothing reported
    | Quiet                            // no real change: nothing reported, state kept
    | RealChange(diffs: seq<ByteDiff>) // real change: the differing bytes are dumped
    | IndexFault                       // report longer than the stored one: the listener throws

  function Abs(v: int): nat
  {
    if v < 0 then -v else v
  }

  /** The per-byte filter of the listener's loop: does byte `i` count as a real change? */
  predicate ByteChanged(i: nat, before: Byte, after: Byte, base: Byte)
  {
    if i <= LAST_AXIS_BYTE then
      var dist := Abs(after - base);
      var oldDist := Abs(before - base);
      !(dist < AXIS_DEADZONE && oldDist < AXIS_DEADZONE) && !(Abs(dist - oldDist) < AXIS_JITTER)
    else
      before != after
  }

  /** The listener's scan over bytes `i..len-1`, setting the flag whenever a byte counts. */
  function ScanFrom(baseline: Report, last: Report, data: Report, i: nat): (changed: bool)
    requires |data| <= |last| && |data| <= |baseline|
    requires i <= |data|
    ensures changed <==> exists j :: i <= j < |data| && ByteChanged(j, last[j], data[j], baseline[j])
    decreases |data| - i
  {
    if i == |data| then false
    else
      var rest := ScanFrom(baseline, last, data, i + 1);
      ByteChanged(i, last[i], data[i], baseline[i]) || rest
  }

  /** The dump loop: every byte position from `i` on whose value differs, in index order. */
  function DiffsFrom(last: Report, data: Report, i: nat): (ds: seq<ByteDiff>)
    requires |data| <= |last|
    requires i <= |data|
    ensures forall k :: 0 <= k < |ds| ==>
      i <= ds[k].index < |data| && ds[k].before == last[ds[k].index] && ds[k].after == data[ds[k].index]
      && ds[k].before != ds[k].after
    ensures forall j :: i <= j < |data| && last[j] != data[j] ==> j in Indices(ds)
    ensures forall k, l :: 0 <= k < l < |ds| ==> ds[k].index < ds[l].index
    decreases |data| - i
  {
    if i == |data| then []
    else
      var rest := DiffsFrom(last, data, i + 1);
      if last[i] != data[i] then
        var d := ByteDiff(i, last[i], data[i]);
        assert ([d] + rest)[1..] == rest;
        [d] + rest
      else rest
  }

  /** The byte positions a dump mentions, in order. */
  function Indices(ds: seq<ByteDiff>): seq<nat>
  {
    if |ds| == 0 then [] else [ds[0].index] + Indices(ds[1..])
  }

  /** One call of the input-report listener. */
  function Step(m: Monitor, data: Report): (r: (Monitor, Verdict))
    ensures m.Fresh? ==> r == (Tracking(data, data), Initial)
    ensures m.Tracking? ==> r.0.Tracking? && r.0.baseline == m.baseline
    ensures r.1.Quiet? || r.1.IndexFault? ==> r.0 == m
    ensures r.1.RealChange? ==> m.Tracking? && r.0.last == data && |r.1.diffs| > 0
    ensures r.1.RealChange? ==> |data| <= |m.last| && r.1.diffs == DiffsFrom(m.last, data, 0)
    ensures m.Tracking? && (|data| > |m.last| || |data| > |m.baseline|) <==> r.1.IndexFault?
    ensures m.Tracking? && |data| <= |m.last| && |data| <= |m.baseline| ==>
      (r.1.RealChange? <==> exists j :: 0 <= j < |data| && ByteChanged(j, m.last[j], data[j], m.baseline[j]))
  {
    match m
    case Fresh => (Tracking(data, data), Initial)
    case Tracking(baseline, last) =>
      if |data| > |last| || |data| > |baseline| then (m, IndexFault)
      else if !ScanFrom(baseline, last, data, 0) then (m, Quiet)
      else
        ChangedBytesDiffer(baseline, last, data);
        (Tracking(baseline, data), RealChange(DiffsFrom(last, data, 0)))
  }

  /** Feeds a stream of reports to the listener, one call each. */
  function Feed(m: Monitor, reports: seq<Report>): Monitor
    decreases |reports|
  {
    if |reports| == 0 then m else Feed(Step(m, reports[0]).0, reports[1..])
  }

  /** A byte that counts as a change always holds a different value. */
  lemma ByteChangedDiffers(i: nat, before: Byte, after: Byte, base: Byte)
    requires ByteChanged(i, before, after, base)
    ensures before != after
  {
  }

  /** A real change always leaves at least one byte to dump. */
  lemma ChangedBytesDiffer(baseline: Report, last: Report, data: Report)
    requires |data| <= |last| && |data| <= |baseline|
    requires ScanFrom(baseline, last, data, 0)
    ensures |DiffsFrom(last, data, 0)| > 0
  {
    var j :| 0 <= j < |data| && ByteChanged(j, last[j], data[j], baseline[j]);
    ByteChangedDiffers(j, last[j], data[j], baseline[j]);
  }

  /** An axis that stays inside the deadzone, before and after, never counts. */
  lemma AxisRestIgnored(i: nat, before: Byte, after: Byte, base: Byte)
    requires i <= LAST_AXIS_BYTE
    requires Abs(before - base) < AXIS_DEADZONE && Abs(after - base) < AXIS_DEADZONE
    ensures !ByteChanged(i, before, after, base)
  {
  }

  /** An axis that moves by less than the jitter threshold never counts, wherever it is. */
  lemma AxisJitterIgnored(i: nat, before: Byte, after: Byte, base: Byte)
    requires i <= LAST_AXIS_BYTE
    requires Abs(after - before) < AXIS_JITTER
    ensures !ByteChanged(i, before, after, base)
  {
  }

  /** An axis that leaves the deadzone by a step of at least the jitter threshold counts. */
  lemma AxisLeavingRestCounts(i: nat, before: Byte, after: Byte, base: Byte)
    requires i <= LAST_AXIS_BYTE
    requires Abs(before - base) < AXIS_DEADZONE
    requires Abs(after - base) >= AXIS_DEADZONE + AXIS_JITTER
    ensures ByteChanged(i, before, after, base)
  {
  }

  /** A button byte counts exactly when its value differs. */
  lemma ButtonByteExact(i: nat, before: Byte, after: Byte, base: Byte)
    requires i > LAST_AXIS_BYTE
    ensures ByteChanged(i, before, after, base) <==> before != after
  {
  }

  /** Repeating the last accepted report is never a real change, and changes nothing. */
  lemma RepeatIsQuiet(baseline: Report, last: Report)
    requires |last| <= |baseline|
    ensures Step(Tracking(baseline, last), last) == (Tracking(baseline, last), Quiet)
  {
  }

  /** Well-formed states: the last report is never longer than the baseline. */
  predicate Consistent(m: Monitor)
  {
    m.Tracking? ==> |m.last| <= |m.baseline|
  }

  /**
   * Over any stream, the first report becomes the baseline and stays it; the
   * stored last report never outgrows it.
   */
  lemma {:induction false} BaselineIsFirstReport(reports: seq<Report>)
    requires |reports| > 0
    ensures Feed(Fresh, reports).Tracking?
    ensures Feed(Fresh, reports).baseline == reports[0]
    ensures Consistent(Feed(Fresh, reports))
  {
    var m := Step(Fresh, reports[0]).0;
    assert m == Tracking(reports[0], reports[0]);
    BaselineStays(m, reports[1..]);
  }

  lemma {:induction false} BaselineStays(m: Monitor, reports: seq<Report>)
    requires m.Tracking? && Consistent(m)
    ensures Feed(m, reports).Tracking?
    ensures Feed(m, reports).baseline == m.baseline
    ensures Consistent(Feed(m, reports))
    decreases |reports|
  {
    if |reports| > 0 {
      var m' := Step(m, reports[0]).0;
      assert m'.Tracking? && m'.baseline == m.baseline && Consistent(m');
      BaselineStays(m', reports[1..]);
    }
  }

  /** The character the dump prints for bit `k` of `b`. */
  function BitChar(b: Byte, k: nat): char
  {
    if Bit(b, k) then '1' else '0'
  }

  /** `s` is the eight-character rendering of `b`, most significant bit first. */
  predicate RendersBits(b: Byte, s: string)
  {
    |s| == 8 && forall k :: 0 <= k < 8 ==> s[k] == BitChar(b, 7 - k)
  }

  /** `toBitString`: bits 7 down to 0, one character each. */
  method ToBitString(b: Byte) returns (s: string)
    ensures RendersBits(b, s)
  {
    s := [];
    var i := 7;
    while i >= 0
      invariant -1 <= i <= 7
      invariant |s| == 7 - i
      invariant forall k :: 0 <= k < |s| ==> s[k] == BitChar(b, 7 - k)
    {
      s := s + [if Shr(b, i) % 2 == 1 then '1' else '0'];
      i := i - 1;
    }
  }

  /** Reads a string of '0'/'1' characters back as a binary number, most significant first. */
  function FromBits(s: string): nat
  {
    if |s| == 0 then 0 else 2 * FromBits(s[..|s| - 1]) + (if s[|s| - 1] == '1' then 1 else 0)
  }

  /** The rendering loses nothing: reading it back yields the byte. */
  lemma RenderingRoundTrip(b: Byte, s: string)
    requires RendersBits(b, s)
    ensures FromBits(s) == b
  {
    PrefixIsShift(b, s, 8);
    assert s[..8] == s;
  }

  lemma {:induction false} PrefixIsShift(b: Byte, s: string, j: nat)
    requires RendersBits(b, s)
    requires j <= 8
    ensures FromBits(s[..j]) == Shr(b, 8 - j)
  {
    if j == 0 {
      ShrByteByEight(b);
    } else {
      PrefixIsShift(b, s, j - 1);
      assert s[..j][..j - 1] == s[..j - 1];
      assert s[j - 1] == BitChar(b, 8 - j);
      assert Shr(b, 8 - (j - 1)) == Shr(b, 8 - j) / 2;
    }
  }

  lemma ShrByteByEight(b: Byte)
    ensures Shr(b, 8) == 0
  {
    assert Shr(b, 1) == b / 2;
    assert Shr(b, 2) == b / 4;
    assert Shr(b, 3) == b / 8;
    assert Shr(b, 4) == b / 16;
    assert Shr(b, 5) == b / 32;
    assert Shr(b, 6) == b / 64;
    assert Shr(b, 7) == b / 128;
  }
}

=== FILE: joystick_events.dfy ===
/**
 * The edge detector of the joystick event test: each accepted HID report is
 * classified into one direction, and an event is emitted when the direction
 * differs from the last one and when a button bit differs from its last value.
 * The listener is a pure function from (state, report) to (state', events).
 */
module JoystickEvents {
  import opened Bytes
  import UsbGamepad

  const MIN_REPORT_LEN: nat := 7
  const DEADZONE: int := 20
  const BUTTON_COUNT: nat := 5

  /** The classified stick position. */
  datatype Direction = Center | Up | Down | Left | Right

  /** What the listener announces: a new direction, or button `button` (1..5) pressed or released. */
  datatype Event = DirectionChanged(dir: Direction) | ButtonChanged(button: nat, pressed: bool)

  /** Last known values of buttons 1..5, at indices 0..4. */
  type ButtonBits = s: seq<bool> | |s| == BUTTON_COUNT witness [false, false, false, false, false]

  datatype Watcher = Watcher(
    centerX: Byte, centerY: Byte, centerSet: bool,
    lastDirection: Direction,
    lastButtons: ButtonBits)

  /** The listener's static fields before the first report: centre (127, 127) unset, CENTER, no button held. */
  const Start: Watcher := Watcher(127, 127, false, Center, [false, false, false, false, false])

  /** Masks of buttons 1..5 in the button byte. */
  function ButtonMask(k: nat): bv8
    requires k < BUTTON_COUNT
  {
    [0x20, 0x08, 0x40, 0x80, 0x10][k]
  }

  /** The direction of one reading against a centre: UP, then DOWN, then LEFT, then RIGHT, else CENTER. */
  function Classify(x: Byte, y: Byte, centerX: Byte, centerY: Byte): Direction
  {
    var left := x < centerX - DEADZONE;
    var right := x > centerX + DEADZONE;
    var up := y < centerY - DEADZONE;
    var down := y > centerY + DEADZONE;
    if up && !down then Up
    else if down && !up then Down
    else if left && !right then Left
    else if right && !left then Right
    else Center
  }

  /** The button values a button byte encodes. */
  function DecodeButtons(b: Byte): (bits: ButtonBits)
    ensures forall k :: 0 <= k < BUTTON_COUNT ==> bits[k] == HasMask(b, ButtonMask(k))
  {
    seq(BUTTON_COUNT, k requires 0 <= k < BUTTON_COUNT => HasMask(b, ButtonMask(k)))
  }

  /** Press/release events for buttons `k+1..5` whose value differs, in button order. */
  function ButtonEdges(before: ButtonBits, after: ButtonBits, k: nat): (evs: seq<Event>)
    requires k <= BUTTON_COUNT
    ensures forall i :: 0 <= i < |evs| ==>
      evs[i].ButtonChanged? && k < evs[i].button <= BUTTON_COUNT
      && before[evs[i].button - 1] != after[evs[i].button - 1]
      && evs[i].pressed == after[evs[i].button - 1]
    ensures forall i, l :: 0 <= i < l < |evs| ==> evs[i].button < evs[l].button
    decreases BUTTON_COUNT - k
  {
    if k == BUTTON_COUNT then []
    else
      var rest := ButtonEdges(before, after, k + 1);
      if before[k] != after[k] then [ButtonChanged(k + 1, after[k])] + rest else rest
  }

  /** Every button whose value differs from `k` on is announced. */
  lemma {:induction false} EdgesCover(before: ButtonBits, after: ButtonBits, k: nat, j: nat)
    requires k <= j < BUTTON_COUNT && before[j] != after[j]
    ensures ButtonChanged(j + 1, after[j]) in ButtonEdges(before, after, k)
    decreases BUTTON_COUNT - k
  {
    if j > k {
      EdgesCover(before, after, k + 1, j);
    }
  }

  /** The input-report listener. */
  function Step(w: Watcher, data: Report): (r: (Watcher, seq<Event>))
    ensures |data| < MIN_REPORT_LEN ==> r == (w, [])
    ensures w.centerSet ==> r.0.centerX == w.centerX && r.0.centerY == w.centerY && r.0.centerSet
    ensures !w.centerSet && |data| >= MIN_REPORT_LEN ==>
      r.0.centerSet && r.0.centerX == data[0] && r.0.centerY == data[1]
  {
    if |data| < MIN_REPORT_LEN then (w, [])
    else
      var x := data[0];
      var y := data[1];
      var centred := if !w.centerSet then w.(centerX := x, centerY := y, centerSet := true) else w;
      var dir := Classify(x, y, centred.centerX, centred.centerY);
      var bits := DecodeButtons(data[6]);
      var dirEvents := if dir != w.lastDirection then [DirectionChanged(dir)] else [];
      (centred.(lastDirection := dir, lastButtons := bits), dirEvents + ButtonEdges(w.lastButtons, bits, 0))
  }

  /**
   * The first accepted report after start-up becomes the centre, so it reads
   * CENTER and no direction event fires; exactly the buttons held at that
   * moment are announced, each as pressed.
   */
  lemma FirstReportFromStart(data: Report)
    requires |data| >= MIN_REPORT_LEN
    ensures var (w', evs) := Step(Start, data);
      && w'.centerSet && w'.centerX == data[0] && w'.centerY == data[1]
      && w'.lastDirection == Center
      && (forall i :: 0 <= i < |evs| ==> evs[i].ButtonChanged? && evs[i].pressed)
      && (forall k :: 0 <= k < BUTTON_COUNT ==>
            (ButtonChanged(k + 1, true) in evs <==> HasMask(data[6], ButtonMask(k))))
  {
    var bits := DecodeButtons(data[6]);
    var evs := Step(Start, data).1;
    assert Classify(data[0], data[1], data[0], data[1]) == Center;
    assert evs == ButtonEdges(Start.lastButtons, bits, 0);
    forall k | 0 <= k < BUTTON_COUNT && bits[k]
      ensures ButtonChanged(k + 1, true) in evs
    {
      EdgesCover(Start.lastButtons, bits, 0, k);
    }
  }

  /** Classification honours the fixed priority; every reading has exactly one class. */
  lemma ClassifyPriority(x: Byte, y: Byte, cx: Byte, cy: Byte)
    ensures Classify(x, y, cx, cy) == Up <==> y < cy - DEADZONE
    ensures Classify(x, y, cx, cy) == Down <==> y > cy + DEADZONE
    ensures Classify(x, y, cx, cy) == Left <==>
      x < cx - DEADZONE && !(y < cy - DEADZONE) && !(y > cy + DEADZONE)
    ensures Classify(x, y, cx, cy) == Right <==>
      x > cx + DEADZONE && !(y < cy - DEADZONE) && !(y > cy + DEADZONE)
    ensures Classify(x, y, cx, cy) == Center <==>
      cx - DEADZONE <= x <= cx + DEADZONE && cy - DEADZONE <= y <= cy + DEADZONE
  {
  }

  /** A direction event is emitted exactly when the class changes, names the new class, and comes first. */
  lemma DirectionEdge(w: Watcher, data: Report)
    requires |data| >= MIN_REPORT_LEN
    ensures var (w', evs) := Step(w, data);
      && ((exists i :: 0 <= i < |evs| && evs[i].DirectionChanged?) <==> w'.lastDirection != w.lastDirection)
      && (forall i :: 0 <= i < |evs| && evs[i].DirectionChanged? ==> i == 0 && evs[i].dir == w'.lastDirection)
      && w'.lastDirection == Classify(data[0], data[1], w'.centerX, w'.centerY)
  {
    var (w', evs) := Step(w, data);
    var dirEvents := if w'.lastDirection != w.lastDirection then [DirectionChanged(w'.lastDirection)] else [];
    var bits := DecodeButtons(data[6]);
    assert evs == dirEvents + ButtonEdges(w.lastButtons, bits, 0);
    if w'.lastDirection != w.lastDirection {
      assert evs[0].DirectionChanged?;
    }
  }

  /**
   * Each button yields one event exactly when its bit changed, "pressed" when
   * it is now set, and the new state remembers the bit.
   */
  lemma ButtonEdge(w: Watcher, data: Report, k: nat)
    requires |data| >= MIN_REPORT_LEN
    requires k < BUTTON_COUNT
    ensures Step(w, data).0.lastButtons[k] == HasMask(data[6], ButtonMask(k))
    ensures ButtonChanged(k + 1, Step(w, data).0.lastButtons[k]) in Step(w, data).1
      <==> w.lastButtons[k] != Step(w, data).0.lastButtons[k]
    ensures forall e :: e in Step(w, data).1 && e.ButtonChanged? && e.button == k + 1 ==>
      e.pressed == Step(w, data).0.lastButtons[k] && w.lastButtons[k] != Step(w, data).0.lastButtons[k]
    ensures forall i, l ::
      (0 <= i < l < |Step(w, data).1| && Step(w, data).1[i].ButtonChanged? && Step(w, data).1[l].ButtonChanged?) ==>
      Step(w, data).1[i].button < Step(w, data).1[l].button
  {
    var bits := DecodeButtons(data[6]);
    var edges := ButtonEdges(w.lastButtons, bits, 0);
    var dirEvents := StepShape(w, data);
    ButtonsFollowDirection(dirEvents, edges);
    if w.lastButtons[k] != bits[k] {
      EdgesCover(w.lastButtons, bits, 0, k);
    }
  }

  /** The events of an accepted report: at most one direction event, then the button edges. */
  lemma StepShape(w: Watcher, data: Report) returns (dirEvents: seq<Event>)
    requires |data| >= MIN_REPORT_LEN
    ensures |dirEvents| <= 1 && forall i :: 0 <= i < |dirEvents| ==> dirEvents[i].DirectionChanged?
    ensures Step(w, data).0.lastButtons == DecodeButtons(data[6])
    ensures Step(w, data).1 == dirEvents + ButtonEdges(w.lastButtons, DecodeButtons(data[6]), 0)
  {
    var w' := Step(w, data).0;
    dirEvents := if w'.lastDirection != w.lastDirection then [DirectionChanged(w'.lastDirection)] else [];
  }

  /** Prefixing at most one direction event keeps the button events and their order. */
  lemma ButtonsFollowDirection(dirEvents: seq<Event>, edges: seq<Event>)
    requires |dirEvents| <= 1 && forall i :: 0 <= i < |dirEvents| ==> dirEvents[i].DirectionChanged?
    requires forall i :: 0 <= i < |edges| ==> edges[i].ButtonChanged?
    ensures forall e :: e in dirEvents + edges && e.ButtonChanged? <==> e in edges
    ensures forall i :: 0 <= i < |dirEvents + edges| && (dirEvents + edges)[i].ButtonChanged? ==>
      i >= |dirEvents| && (dirEvents + edges)[i] == edges[i - |dirEvents|]
  {
  }

  /** Feeding the same report twice in a row: the second time nothing is emitted. */
  lemma RepeatIsSilent(w: Watcher, data: Report)
    ensures Step(Step(w, data).0, data).1 == []
  {
    if |data| >= MIN_REPORT_LEN {
      var w1 := Step(w, data).0;
      var (w2, evs) := Step(w1, data);
      var edges := ButtonEdges(w1.lastButtons, DecodeButtons(data[6]), 0);
      assert w1.lastButtons == DecodeButtons(data[6]);
    }
  }

  /**
   * A press spanning two accepted reports is seen as exactly one "pressed"
   * event followed by exactly one "released" event for that button.
   */
  lemma PressThenRelease(w: Watcher, down: Report, up: Report, k: nat)
    requires |down| >= MIN_REPORT_LEN && |up| >= MIN_REPORT_LEN
    requires k < BUTTON_COUNT
    requires !w.lastButtons[k]
    requires HasMask(down[6], ButtonMask(k)) && !HasMask(up[6], ButtonMask(k))
    ensures var (w1, evs1) := Step(w, down);
      var (w2, evs2) := Step(w1, up);
      && ButtonChanged(k + 1, true) in evs1
      && ButtonChanged(k + 1, false) in evs2
      && (forall i :: 0 <= i < |evs1| && evs1[i].ButtonChanged? && evs1[i].button == k + 1 ==> evs1[i].pressed)
      && (forall i :: 0 <= i < |evs2| && evs2[i].ButtonChanged? && evs2[i].button == k + 1 ==> !evs2[i].pressed)
      && (forall i, j ::
            (0 <= i < |evs1| && 0 <= j < |evs1| && evs1[i] == ButtonChanged(k + 1, true) && evs1[j] == ButtonChanged(k + 1, true))
            ==> i == j)
      && (forall i, j ::
            (0 <= i < |evs2| && 0 <= j < |evs2| && evs2[i] == ButtonChanged(k + 1, false) && evs2[j] == ButtonChanged(k + 1, false))
            ==> i == j)
  {
    ButtonEdge(w, down, k);
    var w1 := Step(w, down).0;
    ButtonEdge(w1, up, k);
  }

  /**
   * The detector's directions agree with the gamepad's joystick predicates
   * when both have seen the same calibration.
   */
  lemma AgreesWithGamepad(w: Watcher, p: UsbGamepad.Pad, data: Report)
    requires |data| >= MIN_REPORT_LEN
    requires w.centerSet == p.centerSet && w.centerX == p.centerX && w.centerY == p.centerY
    ensures var w' := Step(w, data).0;
      var p' := UsbGamepad.OnReport(p, data);
      && (w'.lastDirection == Up <==> UsbGamepad.Joystick1(p', UsbGamepad.Up))
      && (w'.lastDirection == Down <==> UsbGamepad.Joystick1(p', UsbGamepad.Down))
      && (w'.lastDirection == Left <==>
            UsbGamepad.Joystick1(p', UsbGamepad.Left)
            && !UsbGamepad.Joystick1(p', UsbGamepad.Up) && !UsbGamepad.Joystick1(p', UsbGamepad.Down))
      && (w'.lastDirection == Right <==>
            UsbGamepad.Joystick1(p', UsbGamepad.Right) && !UsbGamepad.Joystick1(p', UsbGamepad.Up)
            && !UsbGamepad.Joystick1(p', UsbGamepad.Down) && !UsbGamepad.Joystick1(p', UsbGamepad.Left))
      && (w'.lastDirection == Center <==>
            !UsbGamepad.Joystick1(p', UsbGamepad.Up) && !UsbGamepad.Joystick1(p', UsbGamepad.Down)
            && !UsbGamepad.Joystick1(p', UsbGamepad.Left) && !UsbGamepad.Joystick1(p', UsbGamepad.Right))
  {
    var w' := Step(w, data).0;
    var p' := UsbGamepad.OnReport(p, data);
    assert p'.centerSet && p'.centerX == w'.centerX && p'.centerY == w'.centerY;
    assert p'.x == data[0] && p'.y == data[1];
    ClassifyPriority(data[0], data[1], w'.centerX, w'.centerY);
  }
}

=== FILE: snake.dfy ===
/**
 * The snake game on a 30×30 tile board: the turn guard against reversing,
 * the keyboard fallback, apple placement by rejection sampling, and the tick
 * (wall, self-collision including the tail, eating, moving). The random draws
 * of apple placement are a parameter: the sequence of cells `rand` would yield.
 */
module Snake {
  import opened Common

  const COLUMNS: int := 600 / 20
  const ROWS: int := 600 / 20
  const START_LENGTH: nat := 3

  datatype Cell = Cell(x: int, y: int)

  datatype Direction = Up | Down | Left | Right

  datatype State = State(body: seq<Cell>, dir: Direction, apple: Cell, score: nat, running: bool)

  predicate InBounds(c: Cell)
  {
    0 <= c.x < COLUMNS && 0 <= c.y < ROWS
  }

  /** Cells one step apart horizontally or vertically. */
  predicate Adjacent(a: Cell, b: Cell)
  {
    (a.x == b.x && (a.y - b.y == 1 || b.y - a.y == 1))
    || (a.y == b.y && (a.x - b.x == 1 || b.x - a.x == 1))
  }

  function Opposite(d: Direction): Direction
  {
    match d
    case Up => Down
    case Down => Up
    case Left => Right
    case Right => Left
  }

  /** The cell one step from `c` in direction `d`. */
  function NextHead(c: Cell, d: Direction): (h: Cell)
    ensures Adjacent(h, c)
  {
    match d
    case Up => c.(y := c.y - 1)
    case Down => c.(y := c.y + 1)
    case Left => c.(x := c.x - 1)
    case Right => c.(x := c.x + 1)
  }

  /** The guarded turn of the joystick and key handlers: a request for the opposite direction is ignored. */
  function Turn(current: Direction, wanted: Direction): (d: Direction)
    ensures d != Opposite(current)
    ensures d == wanted <==> wanted != Opposite(current)
    ensures d != wanted ==> d == current
  {
    if wanted == Opposite(current) then current else wanted
  }

  /** What a key of the keyboard fallback asks for. */
  datatype Command = Steer(d: Direction) | Restart

  const VK_ENTER: int := 10
  const VK_LEFT: int := 37
  const VK_UP: int := 38
  const VK_RIGHT: int := 39
  const VK_DOWN: int := 40
  const VK_A: int := 65
  const VK_D: int := 68
  const VK_S: int := 83
  const VK_W: int := 87

  /** The key listener's dispatch: arrows and W/A/S/D steer, Enter restarts, all else is ignored. */
  function KeyCommand(code: int): (c: Option<Command>)
    ensures c == Some(Steer(Up)) <==> code == VK_UP || code == VK_W
    ensures c == Some(Steer(Down)) <==> code == VK_DOWN || code == VK_S
    ensures c == Some(Steer(Left)) <==> code == VK_LEFT || code == VK_A
    ensures c == Some(Steer(Right)) <==> code == VK_RIGHT || code == VK_D
    ensures c == Some(Restart) <==> code == VK_ENTER
  {
    if code == VK_UP || code == VK_W then Some(Steer(Up))
    else if code == VK_DOWN || code == VK_S then Some(Steer(Down))
    else if code == VK_LEFT || code == VK_A then Some(Steer(Left))
    else if code == VK_RIGHT || code == VK_D then Some(Steer(Right))
    else if code == VK_ENTER then Some(Restart)
    else None
  }

  /** Every draw of `rand.nextInt(COLUMNS)`, `rand.nextInt(ROWS)` lies on the board. */
  predicate Draws(candidates: seq<Cell>)
  {
    forall i :: 0 <= i < |candidates| ==> InBounds(candidates[i])
  }

  /** Some draw misses `body`, so the rejection loop ends within the given draws. */
  predicate FreeDraw(candidates: seq<Cell>, body: seq<Cell>)
  {
    exists i :: 0 <= i < |candidates| && candidates[i] !in body
  }

  /** `placeApple`: the first drawn cell that is not a segment of `body`. */
  function PlaceApple(body: seq<Cell>, candidates: seq<Cell>): (apple: Cell)
    requires Draws(candidates) && FreeDraw(candidates, body)
    ensures InBounds(apple) && apple !in body
    ensures exists i :: 0 <= i < |candidates| && apple == candidates[i]
                        && forall k :: 0 <= k < i ==> candidates[k] in body
  {
    if candidates[0] !in body then candidates[0]
    else
      var rest := PlaceApple(body, candidates[1..]);
      var i :| 0 <= i < |candidates[1..]| && rest == candidates[1..][i]
               && forall k :: 0 <= k < i ==> candidates[1..][k] in body;
      assert rest == candidates[i + 1];
      rest
  }

  /** `initGame`: three segments heading right from the board's centre, score 0, running. */
  function InitGame(candidates: seq<Cell>): (s: State)
    requires Draws(candidates) && FreeDraw(candidates, StartBody())
    ensures s.running && s.score == 0 && s.dir == Right && s.body == StartBody()
    ensures s.apple !in s.body && InBounds(s.apple)
  {
    State(StartBody(), Right, PlaceApple(StartBody(), candidates), 0, true)
  }

  function StartBody(): (b: seq<Cell>)
    ensures |b| == START_LENGTH
    ensures b == [Cell(15, 15), Cell(14, 15), Cell(13, 15)]
  {
    var c := Cell(COLUMNS / 2, ROWS / 2);
    [c, c.(x := c.x - 1), c.(x := c.x - 2)]
  }

  /** A joystick 1 direction or steering key: the guarded turn, whether or not play is running. */
  function OnSteer(s: State, wanted: Direction): (s': State)
    ensures s' == s.(dir := s'.dir)
    ensures s'.dir != Opposite(s.dir)
    ensures s'.dir == wanted || s'.dir == s.dir
  {
    s.(dir := Turn(s.dir, wanted))
  }

  /** The Menu button or Enter: a new game, only after game over. */
  function OnRestart(s: State, candidates: seq<Cell>): (s': State)
    requires Draws(candidates) && FreeDraw(candidates, StartBody())
    ensures s.running ==> s' == s
    ensures !s.running ==> s' == InitGame(candidates)
  {
    if s.running then s else InitGame(candidates)
  }

  /** The keyboard fallback: steering keys turn as the joystick does, Enter restarts, other keys do nothing. */
  function OnKey(s: State, code: int, candidates: seq<Cell>): (s': State)
    requires Draws(candidates) && FreeDraw(candidates, StartBody())
    ensures s'.dir != Opposite(s.dir) || (!s.running && code == VK_ENTER)
    ensures KeyCommand(code).None? ==> s' == s
    ensures code == VK_ENTER ==> s' == OnRestart(s, candidates)
    ensures KeyCommand(code).Some? && code != VK_ENTER ==>
      s' == s.(dir := Turn(s.dir, KeyCommand(code).value.d))
  {
    match KeyCommand(code)
    case None => s
    case Some(Steer(d)) => OnSteer(s, d)
    case Some(Restart) => OnRestart(s, candidates)
  }

  /** The tick's move: eating grows by the new head, otherwise the tail is dropped. */
  function Advance(body: seq<Cell>, head: Cell, grow: bool): (b: seq<Cell>)
    requires |body| > 0
    ensures |b| == |body| + (if grow then 1 else 0)
    ensures b[0] == head
    ensures forall i :: 1 <= i < |b| ==> b[i] == body[i - 1]
  {
    if grow then [head] + body else [head] + body[..|body| - 1]
  }

  /** The tick would eat (no collision and the new head is on the apple). */
  predicate Eats(s: State)
    requires |s.body| > 0
  {
    var h := NextHead(s.body[0], s.dir);
    s.running && InBounds(h) && h !in s.body && h == s.apple
  }

  /**
   * `updateGame` as written: the replacement apple is drawn while the snake
   * does not yet contain its new head.
   */
  function StepAsWritten(s: State, candidates: seq<Cell>): (s': State)
    requires |s.body| > 0
    requires Eats(s) ==> Draws(candidates) && FreeDraw(candidates, s.body)
    ensures Eats(s) ==>
      (s'.score == s.score + 1 && s'.body == [s.apple] + s.body && s'.apple !in s.body)
  {
    if !s.running then s
    else
      var h := NextHead(s.body[0], s.dir);
      if !InBounds(h) || h in s.body then s.(running := false)
      else if h == s.apple then
        s.(body := Advance(s.body, h, true), score := s.score + 1, apple := PlaceApple(s.body, candidates))
      else s.(body := Advance(s.body, h, false))
  }

  /** Eating the apple when the next draw is the cell it stood on puts the new apple under the head. */
  lemma AppleUnderHead(s: State, candidates: seq<Cell>)
    requires |s.body| > 0 && Eats(s)
    requires Draws(candidates) && |candidates| > 0 && candidates[0] == s.apple
    ensures StepAsWritten(s, candidates).apple == StepAsWritten(s, candidates).body[0]
  {
  }

  /** The smallest instance: the first apple right in front of the start snake, drawn again. */
  lemma AppleUnderHeadAtStart()
    ensures var s := State(StartBody(), Right, Cell(16, 15), 0, true);
      var draws := [Cell(16, 15)];
      draws[0] !in s.body
      && var s' := StepAsWritten(s, draws);
      s'.apple in s'.body && s'.score == 1
  {
    var s := State(StartBody(), Right, Cell(16, 15), 0, true);
    assert NextHead(s.body[0], Right) == Cell(16, 15);
    AppleUnderHead(s, [Cell(16, 15)]);
  }

  /**
   * `updateGame` with the apple drawn off the grown snake: wall and
   * self-collision (the tail included) end the game and change nothing else;
   * eating grows and scores; otherwise the snake moves.
   */
  function Step(s: State, candidates: seq<Cell>): (s': State)
    requires |s.body| > 0
    requires Eats(s) ==> Draws(candidates) && FreeDraw(candidates, [s.apple] + s.body)
    ensures !s.running ==> s' == s
    ensures s.running && !InBounds(NextHead(s.body[0], s.dir)) ==> s' == s.(running := false)
    ensures s.running && NextHead(s.body[0], s.dir) in s.body ==> s' == s.(running := false)
    ensures Eats(s) ==>
      (s'.running && s'.score == s.score + 1 && s'.body == [s.apple] + s.body && s'.apple !in s'.body)
    ensures (s.running && InBounds(NextHead(s.body[0], s.dir)) && NextHead(s.body[0], s.dir) !in s.body
      && !Eats(s)) ==>
      (s'.running && s'.score == s.score && s'.apple == s.apple && |s'.body| == |s.body|
      && s'.body[0] == NextHead(s.body[0], s.dir) && s'.body[1..] == s.body[..|s.body| - 1])
  {
    if !s.running then s
    else
      var h := NextHead(s.body[0], s.dir);
      if !InBounds(h) || h in s.body then s.(running := false)
      else if h == s.apple then
        var grown := Advance(s.body, h, true);
        s.(body := grown, score := s.score + 1, apple := PlaceApple(grown, candidates))
      else s.(body := Advance(s.body, h, false))
  }

  predicate Distinct(b: seq<Cell>)
  {
    forall i, j :: 0 <= i < j < |b| ==> b[i] != b[j]
  }

  predicate Connected(b: seq<Cell>)
  {
    forall i :: 0 <= i < |b| - 1 ==> Adjacent(b[i], b[i + 1])
  }

  /**
   * The snake's own shape in every reachable state: at least the start
   * length, every segment on the board, no two segments on one cell,
   * consecutive segments adjacent, one point per extra segment.
   */
  predicate BodyInv(s: State)
  {
    && |s.body| >= START_LENGTH
    && (forall i :: 0 <= i < |s.body| ==> InBounds(s.body[i]))
    && Distinct(s.body)
    && Connected(s.body)
    && |s.body| == START_LENGTH + s.score
  }

  /** Every reachable state: the body invariant, and the apple on a free board cell. */
  predicate Inv(s: State)
  {
    BodyInv(s) && InBounds(s.apple) && s.apple !in s.body
  }

  lemma InitSatisfiesInv(candidates: seq<Cell>)
    requires Draws(candidates) && FreeDraw(candidates, StartBody())
    ensures Inv(InitGame(candidates))
  {
  }

  /** Prepending a fresh adjacent head keeps a body distinct and connected. */
  lemma {:induction false} PrependKeeps(body: seq<Cell>, h: Cell)
    requires |body| > 0 && Distinct(body) && Connected(body)
    requires h !in body && Adjacent(h, body[0])
    ensures Distinct([h] + body) && Connected([h] + body)
  {
    var b := [h] + body;
    forall i, j | 0 <= i < j < |b|
      ensures b[i] != b[j]
    {
      if i == 0 {
        assert b[j] == body[j - 1];
      } else {
        assert b[i] == body[i - 1] && b[j] == body[j - 1];
      }
    }
    forall i | 0 <= i < |b| - 1
      ensures Adjacent(b[i], b[i + 1])
    {
      if i > 0 {
        assert b[i] == body[i - 1] && b[i + 1] == body[i];
      }
    }
  }

  /** Dropping the last segment keeps a body distinct and connected. */
  lemma DropTailKeeps(body: seq<Cell>)
    requires |body| > 0 && Distinct(body) && Connected(body)
    ensures Distinct(body[..|body| - 1]) && Connected(body[..|body| - 1])
  {
  }

  /** A move or a growth onto a free adjacent board cell keeps the segments on the board, distinct and connected. */
  lemma AdvanceKeeps(body: seq<Cell>, h: Cell, grow: bool)
    requires |body| > 0 && Distinct(body) && Connected(body)
    requires forall i :: 0 <= i < |body| ==> InBounds(body[i])
    requires InBounds(h) && h !in body && Adjacent(h, body[0])
    ensures var b := Advance(body, h, grow);
      Distinct(b) && Connected(b) && forall i :: 0 <= i < |b| ==> InBounds(b[i])
  {
    if grow {
      PrependKeeps(body, h);
      assert Advance(body, h, grow) == [h] + body;
    } else {
      var kept := body[..|body| - 1];
      DropTailKeeps(body);
      assert h !in kept;
      if |kept| > 0 {
        PrependKeeps(kept, h);
      }
      assert Advance(body, h, grow) == [h] + kept;
    }
  }

  /** The corrected tick keeps the invariant, the apple included. */
  lemma StepPreservesInv(s: State, candidates: seq<Cell>)
    requires Inv(s)
    requires Eats(s) ==> Draws(candidates) && FreeDraw(candidates, [s.apple] + s.body)
    ensures Inv(Step(s, candidates))
  {
    if s.running {
      var h := NextHead(s.body[0], s.dir);
      if InBounds(h) && h !in s.body {
        AdvanceKeeps(s.body, h, h == s.apple);
      }
    }
  }

  /**
   * The tick as written and the corrected tick differ in the new apple only:
   * collisions, growth, score and movement are the same.
   */
  lemma AsWrittenAgrees(s: State, drawsAsWritten: seq<Cell>, draws: seq<Cell>)
    requires |s.body| > 0
    requires Eats(s) ==> Draws(drawsAsWritten) && FreeDraw(drawsAsWritten, s.body)
    requires Eats(s) ==> Draws(draws) && FreeDraw(draws, [s.apple] + s.body)
    ensures StepAsWritten(s, drawsAsWritten).(apple := s.apple) == Step(s, draws).(apple := s.apple)
  {
  }

  /**
   * The tick as written keeps the body invariant and an apple on the board;
   * only the apple's being off the snake is lost.
   */
  lemma AsWrittenKeepsBody(s: State, candidates: seq<Cell>)
    requires BodyInv(s) && InBounds(s.apple)
    requires Eats(s) ==> Draws(candidates) && FreeDraw(candidates, s.body)
    ensures BodyInv(StepAsWritten(s, candidates)) && InBounds(StepAsWritten(s, candidates).apple)
  {
    if s.running {
      var h := NextHead(s.body[0], s.dir);
      if InBounds(h) && h !in s.body {
        AdvanceKeeps(s.body, h, h == s.apple);
      }
    }
  }

  /** Steering keeps the invariant and never turns the snake around in one call. */
  lemma SteerPreservesInv(s: State, wanted: Direction)
    requires Inv(s)
    ensures Inv(OnSteer(s, wanted)) && OnSteer(s, wanted).dir != Opposite(s.dir)
  {
  }
}

=== FILE: tetris.dfy ===
/**
 * The falling-block engine: placement validity, moves, rotation without wall
 * kick, locking a piece into the grid, full-row clearing with scoring,
 * spawning, and the restart that game over triggers.
 */
module Tetris {
  import opened Tetromino

  const COLS: nat := 10
  const ROWS: nat := 20
  /** Anchor of a newly spawned piece: horizontally centred, above the board. */
  const SPAWN_X: int := COLS / 2 - 2
  const SPAWN_Y: int := -2
  /** Points per cleared row. */
  const LINE_SCORE: nat := 100

  /** The board: `ROWS` rows of `COLS` cells, 0 for empty, a piece colour otherwise. */
  type Grid = seq<seq<int>>

  predicate ValidGrid(g: Grid)
  {
    |g| == ROWS && forall r :: 0 <= r < ROWS ==> |g[r]| == COLS
  }

  /** A falling piece: its shape, colour and the board position of the shape's top-left cell. */
  datatype Piece = Piece(shape: Matrix, color: int, x: int, y: int)

  /**
   * A piece the engine can hold: a real shape, and a colour that is never 0
   * (`Color.HSBtoRGB` always sets the alpha bits).
   */
  predicate ValidPiece(p: Piece)
  {
    IsShape(p.shape) && p.color != 0
  }

  /** A newly drawn `Tetromino`: table shape `kind`, at the constructor's default position. */
  function NewPiece(kind: nat, color: int): (p: Piece)
    requires kind < |Shapes|
    requires color != 0
    ensures ValidPiece(p) && p.x == SPAWN_X && p.y == SPAWN_Y
  {
    ShapesAreShapes(kind);
    Piece(Shapes[kind], color, 3, -2)
  }

  /** An occupied cell may sit at board column `x`, row `y`. Rows above the board only need a column. */
  predicate CellFree(g: Grid, x: int, y: int)
    requires ValidGrid(g)
  {
    0 <= x < COLS && y < ROWS && (y < 0 || g[y][x] == 0)
  }

  /** Reference meaning of a valid placement: every occupied cell of `shape` at (nx, ny) is free. */
  predicate Fits(g: Grid, nx: int, ny: int, shape: Matrix)
    requires ValidGrid(g) && Rectangular(shape)
  {
    forall r, c :: 0 <= r < |shape| && 0 <= c < Width(shape) && shape[r][c] != 0 ==> CellFree(g, nx + c, ny + r)
  }

  /** The cells at or after (r, c) in row-major order of a matrix. */
  predicate FromCell(shape: Matrix, r: int, c: int, rr: int, cc: int)
  {
    0 <= rr < |shape| && 0 <= cc < Width(shape) && (rr > r || (rr == r && cc >= c))
  }

  /** The scan of `isValidMove` from cell (r, c) on, rejecting at the first bad cell. */
  function ScanValid(g: Grid, nx: int, ny: int, shape: Matrix, r: nat, c: nat): (ok: bool)
    requires ValidGrid(g) && Rectangular(shape)
    requires r <= |shape| && c <= Width(shape)
    ensures ok <==> forall rr, cc :: FromCell(shape, r, c, rr, cc) && shape[rr][cc] != 0 ==>
      CellFree(g, nx + cc, ny + rr)
    decreases |shape| - r, Width(shape) - c
  {
    if r == |shape| then true
    else if c == Width(shape) then ScanValid(g, nx, ny, shape, r + 1, 0)
    else if shape[r][c] == 0 then ScanValid(g, nx, ny, shape, r, c + 1)
    else
      var x := nx + c;
      var y := ny + r;
      if x < 0 || x >= COLS || y >= ROWS then false
      else if y >= 0 && g[y][x] != 0 then false
      else ScanValid(g, nx, ny, shape, r, c + 1)
  }

  /** `isValidMove`. */
  function IsValidMove(g: Grid, nx: int, ny: int, shape: Matrix): (ok: bool)
    requires ValidGrid(g) && Rectangular(shape)
    ensures ok <==> Fits(g, nx, ny, shape)
  {
    ScanValid(g, nx, ny, shape, 0, 0)
  }

  /** `moveDown`: one row lower if that placement is valid; reports whether it moved. */
  function MoveDown(g: Grid, p: Piece): (r: (bool, Piece))
    requires ValidGrid(g) && Rectangular(p.shape)
    ensures r.0 <==> Fits(g, p.x, p.y + 1, p.shape)
    ensures r.0 ==> r.1 == p.(y := p.y + 1)
    ensures !r.0 ==> r.1 == p
    ensures Fits(g, p.x, p.y, p.shape) ==> Fits(g, r.1.x, r.1.y, r.1.shape)
  {
    if IsValidMove(g, p.x, p.y + 1, p.shape) then (true, p.(y := p.y + 1)) else (false, p)
  }

  /** `moveCurrent(dx)`: sideways by `dx` columns if that placement is valid. */
  function MoveCurrent(g: Grid, p: Piece, dx: int): (p': Piece)
    requires ValidGrid(g) && Rectangular(p.shape)
    ensures Fits(g, p.x + dx, p.y, p.shape) ==> p' == p.(x := p.x + dx)
    ensures !Fits(g, p.x + dx, p.y, p.shape) ==> p' == p
    ensures Fits(g, p.x, p.y, p.shape) ==> Fits(g, p'.x, p'.y, p'.shape)
  {
    if IsValidMove(g, p.x + dx, p.y, p.shape) then p.(x := p.x + dx) else p
  }

  /** `rotateCurrent`: the rotated shape at the same anchor if valid there; no wall kick. */
  function RotateCurrent(g: Grid, p: Piece): (p': Piece)
    requires ValidGrid(g) && IsShape(p.shape)
    ensures p'.x == p.x && p'.y == p.y && p'.color == p.color
    ensures Fits(g, p.x, p.y, Rotate(p.shape)) ==> p'.shape == Rotate(p.shape)
    ensures !Fits(g, p.x, p.y, Rotate(p.shape)) ==> p' == p
    ensures IsShape(p'.shape)
    ensures Fits(g, p.x, p.y, p.shape) ==> Fits(g, p'.x, p'.y, p'.shape)
  {
    RotateIsShape(p.shape);
    var rotated := Rotate(p.shape);
    if IsValidMove(g, p.x, p.y, rotated) then p.(shape := rotated) else p
  }

  /** Board cell (x, y) lies under an occupied cell of the piece. */
  predicate Covers(p: Piece, x: int, y: int)
    requires Rectangular(p.shape)
  {
    0 <= y - p.y < |p.shape| && 0 <= x - p.x < Width(p.shape) && p.shape[y - p.y][x - p.x] != 0
  }

  /** Some occupied cell of the piece is above the visible board. */
  predicate AboveBoard(p: Piece)
    requires Rectangular(p.shape)
  {
    exists r, c :: 0 <= r < |p.shape| && 0 <= c < Width(p.shape) && p.shape[r][c] != 0 && p.y + r < 0
  }

  /**
   * Every occupied cell is in a board column and not below the floor: the
   * cells `mergeCurrent` may index without leaving the grid array.
   */
  predicate WithinBoard(p: Piece)
    requires Rectangular(p.shape)
  {
    forall r, c :: 0 <= r < |p.shape| && 0 <= c < Width(p.shape) && p.shape[r][c] != 0 ==>
      0 <= p.x + c < COLS && p.y + r < ROWS
  }

  /** A placement that fits is within the board. */
  lemma FitsWithinBoard(g: Grid, p: Piece)
    requires ValidGrid(g) && Rectangular(p.shape) && Fits(g, p.x, p.y, p.shape)
    ensures WithinBoard(p)
  {
    forall r, c | 0 <= r < |p.shape| && 0 <= c < Width(p.shape) && p.shape[r][c] != 0
      ensures 0 <= p.x + c < COLS && p.y + r < ROWS
    {
      assert CellFree(g, p.x + c, p.y + r);
    }
  }

  /** The grid with the piece's occupied cells painted in its colour. */
  function Lock(g: Grid, p: Piece): (g': Grid)
    requires ValidGrid(g) && Rectangular(p.shape)
    ensures ValidGrid(g')
  {
    seq(ROWS, y requires 0 <= y < ROWS =>
      seq(COLS, x requires 0 <= x < COLS => if Covers(p, x, y) then p.color else g[y][x]))
  }

  /**
   * `mergeCurrent`: rows top first, cells left to right; the first occupied
   * cell above the board aborts. Because rows are scanned top first, that
   * cell comes before any cell that would be written, so the merge is all or
   * nothing.
   */
  method MergeCurrent(g: Grid, p: Piece) returns (g': Grid, overflow: bool)
    requires ValidGrid(g) && Rectangular(p.shape)
    requires WithinBoard(p)
    ensures ValidGrid(g')
    ensures overflow <==> AboveBoard(p)
    ensures overflow ==> g' == g
    ensures !overflow ==> forall y, x :: 0 <= y < ROWS && 0 <= x < COLS ==>
      g'[y][x] == (if Covers(p, x, y) then p.color else g[y][x])
    ensures !overflow ==> g' == Lock(g, p)
  {
    g' := g;
    overflow := false;
    var r := 0;
    while r < |p.shape|
      invariant 0 <= r <= |p.shape|
      invariant ValidGrid(g')
      invariant g' == g || p.y + r >= 0
      invariant forall rr, cc :: 0 <= rr < r && 0 <= cc < Width(p.shape) && p.shape[rr][cc] != 0 ==> p.y + rr >= 0
      invariant forall y, x :: 0 <= y < ROWS && 0 <= x < COLS ==>
        g'[y][x] == (if Covers(p, x, y) && y - p.y < r then p.color else g[y][x])
    {
      var c := 0;
      while c < Width(p.shape)
        invariant 0 <= c <= Width(p.shape)
        invariant ValidGrid(g')
        invariant g' == g || p.y + r >= 0
        invariant forall rr, cc :: 0 <= rr < r && 0 <= cc < Width(p.shape) && p.shape[rr][cc] != 0 ==> p.y + rr >= 0
        invariant forall cc :: 0 <= cc < c && p.shape[r][cc] != 0 ==> p.y + r >= 0
        invariant forall y, x :: 0 <= y < ROWS && 0 <= x < COLS ==>
          g'[y][x] == (if Covers(p, x, y) && (y - p.y < r || (y - p.y == r && x - p.x < c)) then p.color else g[y][x])
      {
        if p.shape[r][c] != 0 {
          var gx := p.x + c;
          var gy := p.y + r;
          if gy < 0 {
            overflow := true;
            return;
          }
          assert 0 <= gx < COLS && gy < ROWS;
          g' := g'[gy := g'[gy][gx := p.color]];
        }
        c := c + 1;
      }
      r := r + 1;
    }
    forall y | 0 <= y < ROWS
      ensures g'[y] == Lock(g, p)[y]
    {
    }
  }

  /** A row with every column occupied. */
  predicate IsFull(row: seq<int>)
  {
    forall c :: 0 <= c < |row| ==> row[c] != 0
  }

  function EmptyRow(): (row: seq<int>)
    ensures |row| == COLS && !IsFull(row)
  {
    assert seq(COLS, _ => 0)[0] == 0;
    seq(COLS, _ => 0)
  }

  function EmptyRows(n: nat): (rows: seq<seq<int>>)
    ensures |rows| == n && forall i :: 0 <= i < n ==> rows[i] == EmptyRow()
  {
    seq(n, _ => EmptyRow())
  }

  /** How many rows are full. */
  function CountFull(rows: seq<seq<int>>): nat
  {
    if |rows| == 0 then 0
    else CountFull(rows[..|rows| - 1]) + (if IsFull(rows[|rows| - 1]) then 1 else 0)
  }

  /** The rows that are not full, in their original order. */
  function KeepNonFull(rows: seq<seq<int>>): (kept: seq<seq<int>>)
    ensures |kept| + CountFull(rows) == |rows|
    ensures forall i :: 0 <= i < |kept| ==> !IsFull(kept[i]) && kept[i] in rows
  {
    if |rows| == 0 then []
    else
      var init := KeepNonFull(rows[..|rows| - 1]);
      var last := rows[|rows| - 1];
      if IsFull(last) then init else init + [last]
  }

  /** The board after clearing: one empty row on top for each full row removed, then the others in order. */
  function Compacted(g: Grid): (g': Grid)
    requires ValidGrid(g)
    ensures ValidGrid(g')
    ensures forall r :: 0 <= r < ROWS ==> !IsFull(g'[r])
  {
    var kept := KeepNonFull(g);
    assert forall i :: 0 <= i < |kept| ==> |kept[i]| == COLS;
    EmptyRows(CountFull(g)) + kept
  }

  /** Row `r` removed, the rows above it moved down one, an empty row on top. */
  function ShiftDown(rows: seq<seq<int>>, r: nat): (shifted: seq<seq<int>>)
    requires r < |rows|
    ensures |shifted| == |rows|
    ensures shifted[0] == EmptyRow()
    ensures forall y :: 1 <= y <= r ==> shifted[y] == rows[y - 1]
    ensures forall y :: r < y < |rows| ==> shifted[y] == rows[y]
  {
    [EmptyRow()] + rows[..r] + rows[r + 1..]
  }

  /**
   * `clearLines`: rows top to bottom; a full row is removed by moving every
   * row above it down one and putting an empty row on top. The score rises
   * by `LINE_SCORE` per removed row.
   */
  method ClearLines(g: Grid, score: int) returns (g': Grid, score': int)
    requires ValidGrid(g)
    ensures ValidGrid(g')
    ensures g' == Compacted(g)
    ensures forall r :: 0 <= r < ROWS ==> !IsFull(g'[r])
    ensures score' == score + LINE_SCORE * CountFull(g)
  {
    var lines := 0;
    g' := g;
    var r := 0;
    while r < ROWS
      invariant 0 <= r <= ROWS
      invariant lines == CountFull(g[..r])
      invariant g' == ClearedUpTo(g, r)
    {
      ClearedRowIsOriginal(g, r);
      if IsFull(g'[r]) {
        lines := lines + 1;
        g' := ShiftDown(g', r);
        ClearStepFull(g, r);
      } else {
        ClearStepKeep(g, r);
      }
      assert g[..r + 1][..r] == g[..r];
      r := r + 1;
    }
    assert g[..ROWS] == g;
    assert g[ROWS..] == [];
    score' := score + lines * LINE_SCORE;
  }

  /** The board once rows `0..r-1` have been processed by `clearLines`. */
  function ClearedUpTo(g: Grid, r: nat): seq<seq<int>>
    requires ValidGrid(g) && r <= ROWS
  {
    EmptyRows(CountFull(g[..r])) + KeepNonFull(g[..r]) + g[r..]
  }

  /** The row the scan reaches next has not been touched yet. */
  lemma ClearedRowIsOriginal(g: Grid, r: nat)
    requires ValidGrid(g) && r < ROWS
    ensures |ClearedUpTo(g, r)| == ROWS && ClearedUpTo(g, r)[r] == g[r]
  {
    assert |EmptyRows(CountFull(g[..r])) + KeepNonFull(g[..r])| == r;
  }

  lemma ClearStepFull(g: Grid, r: nat)
    requires ValidGrid(g) && r < ROWS && IsFull(g[r])
    ensures ShiftDown(ClearedUpTo(g, r), r) == ClearedUpTo(g, r + 1)
  {
    var pre := g[..r];
    assert g[..r + 1] == pre + [g[r]];
    assert g[..r + 1][..r] == pre;
    var kept := KeepNonFull(pre);
    var k := CountFull(pre);
    var cur := ClearedUpTo(g, r);
    assert |EmptyRows(k) + kept| == r;
    assert cur[..r] == EmptyRows(k) + kept;
    assert cur[r + 1..] == g[r + 1..];
    assert [EmptyRow()] + EmptyRows(k) == EmptyRows(k + 1);
  }

  lemma ClearStepKeep(g: Grid, r: nat)
    requires ValidGrid(g) && r < ROWS && !IsFull(g[r])
    ensures ClearedUpTo(g, r) == ClearedUpTo(g, r + 1)
  {
    var pre := g[..r];
    assert g[..r + 1] == pre + [g[r]];
    assert g[..r + 1][..r] == pre;
    assert g[r..] == [g[r]] + g[r + 1..];
  }

  /** Filtering distributes over concatenation: each part keeps its own non-full rows, in order. */
  lemma {:induction false} KeepNonFullAppend(a: seq<seq<int>>, b: seq<seq<int>>)
    ensures KeepNonFull(a + b) == KeepNonFull(a) + KeepNonFull(b)
    decreases |b|
  {
    if |b| == 0 {
      assert a + b == a;
    } else {
      var b' := b[..|b| - 1];
      KeepNonFullAppend(a, b');
      assert (a + b)[..|a + b| - 1] == a + b';
      assert (a + b)[|a + b| - 1] == b[|b| - 1];
    }
  }

  /** A single row is kept iff it is not full. */
  lemma KeepNonFullSingle(row: seq<int>)
    ensures KeepNonFull([row]) == if IsFull(row) then [] else [row]
  {
    assert [row][..0] == [];
  }

  /**
   * Clearing puts an empty row on top for each full row, and moves every
   * row that is not full down by the number of full rows below it: row r
   * lands after the empty rows and the non-full rows above it.
   */
  lemma ClearKeepsNonFullRows(g: Grid, r: nat)
    requires ValidGrid(g) && r < ROWS && !IsFull(g[r])
    ensures forall i :: 0 <= i < CountFull(g) ==> Compacted(g)[i] == EmptyRow()
    ensures CountFull(g) + |KeepNonFull(g[..r])| < ROWS
    ensures Compacted(g)[CountFull(g) + |KeepNonFull(g[..r])|] == g[r]
  {
    var pre, post := g[..r], g[r + 1..];
    assert g == (pre + [g[r]]) + post;
    KeepNonFullAppend(pre + [g[r]], post);
    KeepNonFullAppend(pre, [g[r]]);
    KeepNonFullSingle(g[r]);
    assert KeepNonFull(g) == KeepNonFull(pre) + [g[r]] + KeepNonFull(post);
    assert Compacted(g) == EmptyRows(CountFull(g)) + KeepNonFull(g);
  }

  /** Rows that survive clearing keep their top-to-bottom order. */
  lemma ClearKeepsOrder(g: Grid, r1: nat, r2: nat)
    requires ValidGrid(g) && r1 < r2 < ROWS && !IsFull(g[r1])
    ensures |KeepNonFull(g[..r1])| < |KeepNonFull(g[..r2])|
  {
    assert g[..r2] == g[..r1] + ([g[r1]] + g[r1 + 1..r2]);
    KeepNonFullAppend(g[..r1], [g[r1]] + g[r1 + 1..r2]);
    KeepNonFullAppend([g[r1]], g[r1 + 1..r2]);
    KeepNonFullSingle(g[r1]);
  }

  /** A board without full rows is left as it is. */
  lemma {:induction false} NothingToClear(rows: seq<seq<int>>)
    requires forall r :: 0 <= r < |rows| ==> !IsFull(rows[r])
    ensures CountFull(rows) == 0 && KeepNonFull(rows) == rows
  {
    if |rows| > 0 {
      NothingToClear(rows[..|rows| - 1]);
    }
  }

  /** Rows above the board are checked for their column only, never against the grid. */
  lemma AboveBoardIgnoresGrid(g1: Grid, g2: Grid, nx: int, ny: int, shape: Matrix)
    requires ValidGrid(g1) && ValidGrid(g2) && Rectangular(shape)
    requires ny + |shape| <= 0
    ensures Fits(g1, nx, ny, shape) <==> Fits(g2, nx, ny, shape)
  {
  }

  function EmptyGrid(): (g: Grid)
    ensures ValidGrid(g)
    ensures forall y, x :: 0 <= y < ROWS && 0 <= x < COLS ==> g[y][x] == 0
  {
    EmptyRows(ROWS)
  }

  /** On an empty board the 2×2 square falls until its lower row is the last board row. */
  lemma SquareRestsOnFloor(x: int, y: int)
    requires 0 <= x <= COLS - 2
    ensures Fits(EmptyGrid(), x, y, Shapes[1]) <==> y <= ROWS - 2
  {
    var sq := Shapes[1];
    assert sq[1][0] != 0;
  }

  /** A shape of the seven-entry table: non-empty, rectangular, at most 2 rows and 4 columns. */
  lemma TableShape(m: Matrix)
    requires m in Shapes
    ensures IsShape(m) && |m| <= 2 && Width(m) <= 4
  {
    var k :| 0 <= k < |Shapes| && Shapes[k] == m;
    ShapesAreShapes(k);
  }

  /**
   * A piece `Tetromino.random` can return: a table shape, a non-zero colour,
   * the constructor's default anchor.
   */
  predicate Drawn(p: Piece)
  {
    p.shape in Shapes && p.color != 0 && p.x == SPAWN_X && p.y == SPAWN_Y
  }

  /**
   * At the spawn anchor an unrotated table shape lies wholly above the board
   * in columns 3 to 6, so it fits whatever the grid holds.
   */
  lemma SpawnAlwaysFits(g: Grid, shape: Matrix)
    requires ValidGrid(g) && shape in Shapes
    ensures Rectangular(shape) && Fits(g, SPAWN_X, SPAWN_Y, shape)
  {
    TableShape(shape);
  }

  /** The engine state: the board, the falling and the next piece, the score, and whether play goes on. */
  datatype Game = Game(grid: Grid, current: Piece, next: Piece, score: int, running: bool)

  /** What every reachable state satisfies. */
  predicate Inv(game: Game)
  {
    && ValidGrid(game.grid)
    && ValidPiece(game.current) && ValidPiece(game.next)
    && game.next.shape in Shapes
    && (game.running ==> Fits(game.grid, game.current.x, game.current.y, game.current.shape))
    && (forall r :: 0 <= r < ROWS ==> !IsFull(game.grid[r]))
    && game.score >= 0
  }

  /** What `initGame` leaves behind: an empty board, score 0, running, two freshly drawn pieces. */
  predicate IsNewGame(game: Game)
  {
    && game.grid == EmptyGrid() && game.score == 0 && game.running
    && Drawn(game.current) && Drawn(game.next)
  }

  /** A new game satisfies the invariant. */
  lemma NewGameInv(game: Game)
    requires IsNewGame(game)
    ensures Inv(game)
  {
    TableShape(game.current.shape);
    TableShape(game.next.shape);
    SpawnAlwaysFits(game.grid, game.current.shape);
    forall r | 0 <= r < ROWS
      ensures !IsFull(game.grid[r])
    {
      assert game.grid[r][0] == 0;
    }
  }

  /** `initGame`: an empty board, two freshly drawn pieces, score 0, running. */
  function InitGame(kind: nat, color: int, nextKind: nat, nextColor: int): (game: Game)
    requires kind < |Shapes| && nextKind < |Shapes|
    requires color != 0 && nextColor != 0
    ensures IsNewGame(game) && Inv(game)
    ensures game.current.shape == Shapes[kind] && game.next.shape == Shapes[nextKind]
  {
    var g := Game(EmptyGrid(), NewPiece(kind, color), NewPiece(nextKind, nextColor), 0, true);
    NewGameInv(g);
    g
  }

  /** `spawnNext`: the next piece becomes current at the spawn anchor; game over iff it does not fit there. */
  function SpawnNext(game: Game, drawn: Piece): (game': Game)
    requires ValidGrid(game.grid) && Rectangular(game.next.shape)
    ensures game'.current == game.next.(x := SPAWN_X, y := SPAWN_Y) && game'.next == drawn
    ensures game'.grid == game.grid && game'.score == game.score
    ensures game'.running <==> Fits(game.grid, SPAWN_X, SPAWN_Y, game.next.shape)
  {
    var spawned := game.next.(x := SPAWN_X, y := SPAWN_Y);
    game.(current := spawned, next := drawn, running := IsValidMove(game.grid, SPAWN_X, SPAWN_Y, spawned.shape))
  }

  /** `clearLines` on a state: compact the board and pay for the full rows. */
  function Cleared(game: Game): (game': Game)
    requires ValidGrid(game.grid)
    ensures ValidGrid(game'.grid) && game'.score >= game.score
  {
    game.(grid := Compacted(game.grid), score := game.score + LINE_SCORE * CountFull(game.grid))
  }

  /**
   * One gravity tick (`updateGame`): move down, or else merge, clear and
   * spawn. `gameOver` restarts the game with `initGame`: `again` is the state
   * that call produces and `drawn` the piece the next `Tetromino.random`
   * draws. A merge above the board restarts before the clear and the spawn,
   * which then run on the new game; a failed spawn restarts after it.
   */
  function UpdateGame(game: Game, drawn: Piece, again: Game): (game': Game)
    requires ValidGrid(game.grid) && Rectangular(game.current.shape) && Rectangular(game.next.shape)
    requires ValidGrid(again.grid) && Rectangular(again.next.shape)
    ensures !game.running ==> game' == game
    ensures game.running && Fits(game.grid, game.current.x, game.current.y + 1, game.current.shape) ==>
      game' == game.(current := game.current.(y := game.current.y + 1))
  {
    if !game.running then game
    else
      var (moved, p) := MoveDown(game.grid, game.current);
      if moved then game.(current := p)
      else
        var merged := if AboveBoard(game.current) then again else game.(grid := Lock(game.grid, game.current));
        var spawned := SpawnNext(Cleared(merged), drawn);
        if spawned.running then spawned else again
  }

  /**
   * `updateGame` as the source runs it: `moveDown`, then on failure
   * `mergeCurrent` (which may restart), `clearLines` and `spawnNext`, in
   * that order.
   */
  method Tick(game: Game, drawn: Piece, again: Game) returns (game': Game)
    requires Inv(game)
    requires ValidGrid(again.grid) && Rectangular(again.next.shape)
    ensures game' == UpdateGame(game, drawn, again)
  {
    if !game.running {
      return game;
    }
    var (moved, p) := MoveDown(game.grid, game.current);
    if moved {
      return game.(current := p);
    }
    FitsWithinBoard(game.grid, game.current);
    var merged, overflow := MergeCurrent(game.grid, game.current);
    var base := if overflow then again else game.(grid := merged);
    var cleared, score := ClearLines(base.grid, base.score);
    game' := SpawnNext(base.(grid := cleared, score := score), drawn);
    if !game'.running {
      game' := again;
    }
  }

  /**
   * A piece that cannot fall locks: its cells join the board, full rows are
   * cleared and paid for, and the next piece enters at the spawn anchor.
   */
  lemma LockThenSpawn(game: Game, drawn: Piece, again: Game)
    requires Inv(game) && game.running
    requires ValidGrid(again.grid) && Rectangular(again.next.shape)
    requires !Fits(game.grid, game.current.x, game.current.y + 1, game.current.shape)
    requires !AboveBoard(game.current)
    ensures var game' := UpdateGame(game, drawn, again);
      var locked := Lock(game.grid, game.current);
      && game'.grid == Compacted(locked)
      && game'.score == game.score + LINE_SCORE * CountFull(locked)
      && game'.current == game.next.(x := SPAWN_X, y := SPAWN_Y)
      && game'.next == drawn && game'.running
  {
    SpawnAlwaysFits(Compacted(Lock(game.grid, game.current)), game.next.shape);
  }

  /**
   * A piece that locks while partly above the board ends the game: play
   * goes on in the new game, whose second piece is already falling.
   */
  lemma OverflowRestarts(game: Game, drawn: Piece, again: Game)
    requires Inv(game) && game.running && IsNewGame(again)
    requires !Fits(game.grid, game.current.x, game.current.y + 1, game.current.shape)
    requires AboveBoard(game.current)
    ensures var game' := UpdateGame(game, drawn, again);
      && game'.grid == EmptyGrid() && game'.score == 0
      && game'.current == again.next && game'.next == drawn && game'.running
  {
    NewGameInv(again);
    NothingToClear(again.grid);
    SpawnAlwaysFits(again.grid, again.next.shape);
  }

  /** The game never stops: after any tick of a running game play goes on. */
  lemma NeverStops(game: Game, drawn: Piece, again: Game)
    requires Inv(game) && game.running && IsNewGame(again)
    ensures UpdateGame(game, drawn, again).running
  {
    if !Fits(game.grid, game.current.x, game.current.y + 1, game.current.shape) {
      if AboveBoard(game.current) {
        OverflowRestarts(game, drawn, again);
      } else {
        LockThenSpawn(game, drawn, again);
      }
    }
  }

  /** A gravity tick keeps the invariant, given a freshly drawn piece and a new game to restart with. */
  lemma UpdatePreservesInv(game: Game, drawn: Piece, again: Game)
    requires Inv(game) && Drawn(drawn) && IsNewGame(again)
    ensures Inv(UpdateGame(game, drawn, again))
  {
    TableShape(drawn.shape);
    NewGameInv(again);
    if game.running && !Fits(game.grid, game.current.x, game.current.y + 1, game.current.shape) {
      if AboveBoard(game.current) {
        OverflowRestarts(game, drawn, again);
        NothingToClear(again.grid);
        TableShape(again.next.shape);
      } else {
        LockThenSpawn(game, drawn, again);
        TableShape(game.next.shape);
      }
    }
  }

  /** Joystick 1 events while running: left/right move, up rotates, down drops one row. */
  datatype Input = StickLeft | StickRight | StickUp | StickDown

  /** The engine's input handlers: only the falling piece can change. */
  function HandleInput(game: Game, input: Input): (game': Game)
    requires ValidGrid(game.grid) && IsShape(game.current.shape)
    ensures game'.grid == game.grid && game'.next == game.next
    ensures game'.score == game.score && game'.running == game.running
    ensures game'.current.color == game.current.color && IsShape(game'.current.shape)
    ensures !game.running ==> game' == game
    ensures Fits(game.grid, game.current.x, game.current.y, game.current.shape) ==>
      Fits(game'.grid, game'.current.x, game'.current.y, game'.current.shape)
    ensures game.running && input == StickLeft ==> game'.current == MoveCurrent(game.grid, game.current, -1)
    ensures game.running && input == StickRight ==> game'.current == MoveCurrent(game.grid, game.current, 1)
    ensures game.running && input == StickUp ==> game'.current == RotateCurrent(game.grid, game.current)
    ensures game.running && input == StickDown ==> game'.current == MoveDown(game.grid, game.current).1
  {
    if !game.running then game
    else
      match input
      case StickLeft => game.(current := MoveCurrent(game.grid, game.current, -1))
      case StickRight => game.(current := MoveCurrent(game.grid, game.current, 1))
      case StickUp => game.(current := RotateCurrent(game.grid, game.current))
      case StickDown => game.(current := MoveDown(game.grid, game.current).1)
  }

  /** Input handling keeps the invariant. */
  lemma InputPreservesInv(game: Game, input: Input)
    requires Inv(game)
    ensures Inv(HandleInput(game, input))
  {
  }
}

=== FILE: tetromino.dfy ===
/**
 * Falling-block pieces: the shape matrices, the seven-shape table and the
 * clockwise matrix rotation.
 */
module Tetromino {

  /** A shape matrix; a non-zero entry is an occupied cell. */
  type Matrix = seq<seq<int>>

  /** `shape[0].length`, or 0 for a matrix without rows. */
  function Width(m: Matrix): nat
  {
    if |m| == 0 then 0 else |m[0]|
  }

  predicate Rectangular(m: Matrix)
  {
    forall r :: 0 <= r < |m| ==> |m[r]| == Width(m)
  }

  /** A piece shape: a non-empty rectangular matrix. */
  predicate IsShape(m: Matrix)
  {
    |m| > 0 && Width(m) > 0 && Rectangular(m)
  }

  /** The occupied cells of a matrix, as (row, column) pairs. */
  function Cells(m: Matrix): set<(int, int)>
    requires Rectangular(m)
  {
    set r, c | 0 <= r < |m| && 0 <= c < Width(m) && m[r][c] != 0 :: (r, c)
  }

  /** `rotate`: a `rows`×`cols` matrix becomes `cols`×`rows`, cell (r, c) moving to (c, rows-1-r). */
  function Rotate(m: Matrix): (rot: Matrix)
    requires |m| > 0 && Rectangular(m)
    ensures |rot| == Width(m) && Rectangular(rot)
    ensures |rot| > 0 ==> Width(rot) == |m|
    ensures forall r, c :: 0 <= r < |m| && 0 <= c < Width(m) ==> rot[c][|m| - 1 - r] == m[r][c]
  {
    seq(Width(m), i requires 0 <= i < Width(m) => seq(|m|, j requires 0 <= j < |m| => m[|m| - 1 - j][i]))
  }

  /** Rotating a shape yields a shape with the dimensions swapped. */
  lemma RotateIsShape(m: Matrix)
    requires IsShape(m)
    ensures IsShape(Rotate(m)) && |Rotate(m)| == Width(m) && Width(Rotate(m)) == |m|
  {
  }

  /** The half turn of a `rows`×`cols` matrix sends cell (r, c) to (rows-1-r, cols-1-c). */
  function HalfTurn(m: Matrix): (h: Matrix)
    requires Rectangular(m)
    ensures |h| == |m| && Rectangular(h) && Width(h) == Width(m)
  {
    seq(|m|, r requires 0 <= r < |m| =>
      seq(Width(m), c requires 0 <= c < Width(m) => m[|m| - 1 - r][Width(m) - 1 - c]))
  }

  /** Two quarter turns make a half turn. */
  lemma RotateTwice(m: Matrix)
    requires IsShape(m)
    ensures Rotate(Rotate(m)) == HalfTurn(m)
  {
    var rows, cols := |m|, Width(m);
    var m1 := Rotate(m);
    var m2 := Rotate(m1);
    var h := HalfTurn(m);
    assert |m2| == rows;
    forall r | 0 <= r < rows
      ensures m2[r] == h[r]
    {
      assert |m2[r]| == cols;
      forall c | 0 <= c < cols
        ensures m2[r][c] == h[r][c]
      {
        assert m2[r][c] == m1[cols - 1 - c][r];
        assert m1[cols - 1 - c][r] == m[rows - 1 - r][cols - 1 - c];
      }
    }
  }

  /** A half turn undone by another half turn. */
  lemma HalfTurnTwice(m: Matrix)
    requires Rectangular(m)
    ensures HalfTurn(HalfTurn(m)) == m
  {
    var h2 := HalfTurn(HalfTurn(m));
    forall r | 0 <= r < |m|
      ensures h2[r] == m[r]
    {
    }
  }

  /** Four quarter turns give back the original matrix, entry for entry. */
  lemma RotateFourTimes(m: Matrix)
    requires IsShape(m)
    ensures Rotate(Rotate(Rotate(Rotate(m)))) == m
  {
    RotateTwice(m);
    RotateIsShape(m);
    RotateIsShape(Rotate(m));
    RotateTwice(Rotate(Rotate(m)));
    HalfTurnTwice(m);
  }

  /** Rotation moves occupied cells one-to-one: the number of occupied cells is kept. */
  lemma RotateKeepsCellCount(m: Matrix)
    requires |m| > 0 && Rectangular(m)
    ensures |Cells(Rotate(m))| == |Cells(m)|
  {
    var rows := |m|;
    var rot := Rotate(m);
    var image := set p | p in Cells(m) :: (p.1, rows - 1 - p.0);
    forall q | q in Cells(rot)
      ensures q in image
    {
      var (i, j) := q;
      assert (rows - 1 - j, i) in Cells(m);
    }
    forall q | q in image
      ensures q in Cells(rot)
    {
      var p :| p in Cells(m) && q == (p.1, rows - 1 - p.0);
      assert rot[p.1][rows - 1 - p.0] == m[p.0][p.1];
    }
    assert Cells(rot) == image;
    QuarterTurnImageSize(Cells(m), rows);
  }

  /** The quarter-turn map (r, c) -> (c, rows-1-r) is injective, so images keep their size. */
  lemma {:induction false} QuarterTurnImageSize(s: set<(int, int)>, rows: int)
    ensures |set p | p in s :: (p.1, rows - 1 - p.0)| == |s|
    decreases |s|
  {
    if s != {} {
      var x :| x in s;
      var s' := s - {x};
      QuarterTurnImageSize(s', rows);
      var img := set p | p in s :: (p.1, rows - 1 - p.0);
      var img' := set p | p in s' :: (p.1, rows - 1 - p.0);
      var fx := (x.1, rows - 1 - x.0);
      assert img == img' + {fx};
      assert fx !in img';
    }
  }

  /** The seven shapes of `Tetromino.random`: I, O, T, J, L, S, Z. */
  const Shapes: seq<Matrix> := [
    [[1, 1, 1, 1]],
    [[1, 1], [1, 1]],
    [[0, 1, 0], [1, 1, 1]],
    [[1, 0, 0], [1, 1, 1]],
    [[0, 0, 1], [1, 1, 1]],
    [[1, 1, 0], [0, 1, 1]],
    [[0, 1, 1], [1, 1, 0]]
  ]

  /** Every table entry is a shape of at most two rows and four columns. */
  lemma ShapesAreShapes(k: nat)
    requires k < |Shapes|
    ensures IsShape(Shapes[k]) && |Shapes[k]| <= 2 && Width(Shapes[k]) <= 4
  {
  }
}

=== FILE: usb_gamepad.dfy ===
/**
 * The physical controller as a capability source: the HID report listener is
 * a state update (axes, button byte, one-time centre calibration), and the
 * button and joystick queries are predicates on that state.
 */
module UsbGamepad {
  import opened Common
  import opened Bytes

  /** Reports shorter than this are ignored. */
  const MIN_REPORT_LEN: nat := 7
  /** Byte positions of the X axis, the Y axis and the button bitmask. */
  const X_BYTE: nat := 0
  const Y_BYTE: nat := 1
  const BUTTON_BYTE: nat := 6
  /** How far an axis must leave its centre before it reads as a direction. */
  const DEADZONE: int := 20
  /** Axis value assumed before any report arrives. */
  const AXIS_REST: Byte := 127

  /** What the listener has written so far. */
  datatype Pad = Pad(x: Byte, y: Byte, buttons: Byte, centerX: Byte, centerY: Byte, centerSet: bool)

  /** The state of a freshly constructed gamepad; with no device it never changes. */
  const NoDevice: Pad := Pad(AXIS_REST, AXIS_REST, 0, AXIS_REST, AXIS_REST, false)

  /** The named buttons of the controller interface. */
  datatype ButtonName = A1 | B1 | X1 | Y1 | A2 | B2 | X2 | Y2 | Menu

  /** The four directions a joystick reports. */
  datatype Direction = Up | Down | Left | Right

  /** The input-report listener. */
  function OnReport(p: Pad, data: Report): (p': Pad)
    ensures |data| < MIN_REPORT_LEN ==> p' == p
    ensures |data| >= MIN_REPORT_LEN ==>
      p'.x == data[X_BYTE] && p'.y == data[Y_BYTE] && p'.buttons == data[BUTTON_BYTE] && p'.centerSet
    ensures p.centerSet ==> p'.centerX == p.centerX && p'.centerY == p.centerY && p'.centerSet
    ensures !p.centerSet && |data| >= MIN_REPORT_LEN ==>
      p'.centerX == data[X_BYTE] && p'.centerY == data[Y_BYTE]
  {
    if |data| < MIN_REPORT_LEN then p
    else
      var lx := data[X_BYTE];
      var ly := data[Y_BYTE];
      var centred := if !p.centerSet then p.(centerX := lx, centerY := ly, centerSet := true) else p;
      centred.(x := lx, y := ly, buttons := data[BUTTON_BYTE])
  }

  /** `fromMask`: a button reads as pressed when its bit of the button byte is set. */
  predicate FromMask(p: Pad, mask: bv8)
  {
    HasMask(p.buttons, mask)
  }

  /** The button getters: five buttons on byte 6, the player-2 buttons unwired. */
  predicate Pressed(p: Pad, name: ButtonName)
  {
    match name
    case A1 => FromMask(p, 0x20)
    case B1 => FromMask(p, 0x08)
    case X1 => FromMask(p, 0x40)
    case Y1 => FromMask(p, 0x80)
    case Menu => FromMask(p, 0x10)
    case A2 => false
    case B2 => false
    case X2 => false
    case Y2 => false
  }

  /** `HardwareJoystick`: a direction against the calibrated centre, never before calibration. */
  predicate Joystick1(p: Pad, d: Direction)
  {
    if !p.centerSet then false
    else
      match d
      case Up => p.y < p.centerY - DEADZONE
      case Down => p.y > p.centerY + DEADZONE
      case Left => p.x < p.centerX - DEADZONE
      case Right => p.x > p.centerX + DEADZONE
  }

  /** `DummyJoystick`: the second stick is not wired. */
  predicate Joystick2(p: Pad, d: Direction)
  {
    false
  }

  /** Feeds a stream of reports to the listener. */
  function Feed(p: Pad, reports: seq<Report>): Pad
    decreases |reports|
  {
    if |reports| == 0 then p else Feed(OnReport(p, reports[0]), reports[1..])
  }

  /** The first report of a stream long enough to be accepted, if any. */
  function FirstAccepted(reports: seq<Report>): (r: Option<Report>)
    ensures r.Some? ==> |r.value| >= MIN_REPORT_LEN && r.value in reports
    ensures r.Some? ==>
      exists i :: (0 <= i < |reports| && reports[i] == r.value
        && forall j :: 0 <= j < i ==> |reports[j]| < MIN_REPORT_LEN)
    ensures r.None? ==> forall i :: 0 <= i < |reports| ==> |reports[i]| < MIN_REPORT_LEN
    decreases |reports|
  {
    if |reports| == 0 then None
    else if |reports[0]| >= MIN_REPORT_LEN then Some(reports[0])
    else FirstAccepted(reports[1..])
  }

  /** Each button reads the bit its mask selects. */
  lemma ButtonBits(p: Pad)
    ensures Pressed(p, A1) <==> Bit(p.buttons, 5)
    ensures Pressed(p, B1) <==> Bit(p.buttons, 3)
    ensures Pressed(p, X1) <==> Bit(p.buttons, 6)
    ensures Pressed(p, Y1) <==> Bit(p.buttons, 7)
    ensures Pressed(p, Menu) <==> Bit(p.buttons, 4)
    ensures !Pressed(p, A2) && !Pressed(p, B2) && !Pressed(p, X2) && !Pressed(p, Y2)
  {
    MaskIsBit(p.buttons);
  }

  /** Without a device no report ever arrives: every query reads false. */
  lemma NoDeviceIsInert(name: ButtonName, d: Direction)
    ensures !Pressed(NoDevice, name)
    ensures !Joystick1(NoDevice, d) && !Joystick2(NoDevice, d)
  {
    MaskIsBit(NoDevice.buttons);
    assert Shr(0, 3) == 0 && Shr(0, 4) == 0 && Shr(0, 5) == 0 && Shr(0, 6) == 0 && Shr(0, 7) == 0;
  }

  /** Until the first report calibrates the centre, every direction reads false. */
  lemma UncalibratedIsNeutral(p: Pad, d: Direction)
    requires !p.centerSet
    ensures !Joystick1(p, d) && !Joystick2(p, d)
  {
  }

  /** Opposite directions of one stick never read true together. */
  lemma OppositesExclusive(p: Pad)
    ensures !(Joystick1(p, Up) && Joystick1(p, Down))
    ensures !(Joystick1(p, Left) && Joystick1(p, Right))
  {
  }

  /**
   * Over any stream of reports, the centre is the axis pair of the first
   * accepted report, and it is uncalibrated exactly when no report was accepted.
   */
  lemma {:induction false} CentreFromFirstReport(reports: seq<Report>)
    ensures var p := Feed(NoDevice, reports);
      match FirstAccepted(reports)
      case None => p == NoDevice
      case Some(first) => p.centerSet && p.centerX == first[X_BYTE] && p.centerY == first[Y_BYTE]
  {
    CentreFrom(NoDevice, reports);
  }

  lemma {:induction false} CentreFrom(p: Pad, reports: seq<Report>)
    requires !p.centerSet
    ensures var q := Feed(p, reports);
      match FirstAccepted(reports)
      case None => q == p
      case Some(first) => q.centerSet && q.centerX == first[X_BYTE] && q.centerY == first[Y_BYTE]
    decreases |reports|
  {
    if |reports| > 0 {
      if |reports[0]| >= MIN_REPORT_LEN {
        CentreStays(OnReport(p, reports[0]), reports[1..]);
      } else {
        CentreFrom(p, reports[1..]);
      }
    }
  }

  /** Once calibrated, no later report moves the centre. */
  lemma {:induction false} CentreStays(p: Pad, reports: seq<Report>)
    requires p.centerSet
    ensures Feed(p, reports).centerSet
    ensures Feed(p, reports).centerX == p.centerX && Feed(p, reports).centerY == p.centerY
    decreases |reports|
  {
    if |reports| > 0 {
      CentreStays(OnReport(p, reports[0]), reports[1..]);
    }
  }
}
